=== FILE: README.md ===
# pd_routing alarm-to-PagerDuty reconciliation, modelled in Dafny

pd_routing is a set of audit scripts. They list every CloudWatch alarm in every AWS
region and follow each SNS-topic action of an alarm to the topic's subscriptions.
For every subscription endpoint that is a PagerDuty events URL, they pull out the
integration key. That key is looked up in an index built from the PagerDuty REST API,
which gives the service, and in `all.py` also the team. The result is one report row
per (alarm, topic, PagerDuty key). A topic that reaches no PagerDuty service gets one
row with the key columns empty. An alarm without actions gets one `NO_ACTION` row.
`aws_alarms.py` is a simpler inventory: one CSV row per alarm, giving its action
status and its action ARNs joined by `;`.

The model keeps every remote call out of the logic:

- The PagerDuty REST API is a finite *script* of responses: a rate-limit answer (HTTP
  429), another HTTP error, or a page of items with its `more` flag.
- A boto3 paginator's result is a `Listing`: the pages it delivered, and whether a
  ClientError ended it.
- `describe_alarms` under the NextToken loop is a script of `DescribeResponse`s.
- An exception that ends a script becomes an explicit result:
  - `Aborted(status)` for `raise_for_status`.
  - `None` for the uncaught ClientError of `all.py`, and for the TypeError of `";".join`
    on one alarm. At the level of the whole `aws_alarms.py` run, that TypeError is
    `JoinRaised`.
  - `ScriptEnded` when the modelled responses run out before the loop ends.

Modules, one per concept:

- `Wrappers` holds `Option`.
- `Seqs` holds two loop shapes: keep what a partial map yields, and concatenate per-element results.
- `Strings` covers substring search, text after the last separator, join and split.
- `KeyResolver` is the regular expression `/integration/([^/]+)/?`, with
  leftmost-match semantics.
- `OffsetPaging` is the PagerDuty `limit`/`offset`/`more` loop with 429 retries.
- `KeyIndex` holds the team map and the integration-key index, both last-write-wins.
- `CloudWatch` covers alarms, actions, SNS subscriptions and PagerDuty hits.
- `TeamReport` is `new.py`.
- `AccountReport` is `all.py`.
- `AlarmInventory` is `aws_alarms.py`.

Where one might expect otherwise, the model follows what the scripts do:

- One might expect every alarm to get at least one row. An alarm whose actions are
  all non-SNS gets none in `new.py` and `all.py` (`TeamReport.AlarmRows`,
  `AccountReport.AlarmRows`).
- `all.py` does not degrade on a failed CloudWatch or SNS listing: the uncaught
  ClientError ends the run, and the model returns `None` (`AccountReport.Report`,
  `AccountReport.ActionRows`).
- `new.py` keeps the alarms and subscriptions delivered before a ClientError. A failed
  listing counts as empty only when nothing came before the error
  (`TeamReport.FailedRegionIsEmpty`).
- `new.py`'s `split(":")[-1]` guarded by `":" in arn` and `all.py`'s
  `rsplit(":", 1)[-1]` both give the text after the last `:`. One function
  (`CloudWatch.TopicName`) stands for both.

## Model

| member | source | states |
|---|---|---|
| Strings.ContainsFrom | new.py:198 | the search is true exactly when the needle occurs at some position from the start index on |
| Strings.Contains | all.py:212 | `needle in s` is true exactly when the needle occurs at some position of `s` |
| Strings.StartsWith | new.py:187 | `s.startswith(p)` holds iff `p` fits in `s` and equals its first `|p|` characters |
| Strings.LastIndexBefore | all.py:204 | the position found holds the separator and no later position before the bound does; -1 means none does |
| Strings.AfterLast | all.py:204 | the result is a separator-free suffix of the input, and the character before it (if any) is the separator |
| Strings.AfterLastNoSeparator | new.py:191 | an ARN without `:` is its own topic name |
| Strings.AfterLastOfSuffix | all.py:204 | for `p + ":" + n` with `n` free of `:`, the text after the last `:` is exactly `n`, whatever `p` holds |
| Strings.Split | aws_alarms.py:41 | splitting yields at least one piece and no piece contains the separator |
| Strings.SplitNoSeparator | aws_alarms.py:41 | a string without the separator splits into itself alone |
| Strings.SplitAtSeparator | aws_alarms.py:41 | splitting `a + sep + b` with `a` separator-free gives `a` followed by the pieces of `b` |
| Strings.SplitJoin | aws_alarms.py:41 | joining separator-free ARNs with `;` and splitting on `;` gives back the same list |
| Strings.Join | aws_alarms.py:41 | `";".join`: no parts give the empty string; otherwise the result starts with the first part, followed by the separator when there are more parts; `Strings.SplitJoin` is its inverse |
| KeyResolver.SlashFreeRun | new.py:109 | the group `([^/]+)` extends to the next `/` or the end of the URL |
| KeyResolver.FindMatch | new.py:109 | the search returns the leftmost position where the marker is followed by a non-slash character, or none if there is no such position |
| KeyResolver.ExtractKey | new.py:101-112 | no key iff the URL has no `/integration/` followed by a non-slash character; otherwise the key is the captured group of the leftmost match, non-empty and slash-free |
| KeyResolver.CaptureUnique | all.py:144-146 | the leftmost match and its group are unique, so the regex result is well defined |
| KeyResolver.ExtractKeyIsCapture | all.py:144-146 | whenever a URL captures `k` at its leftmost match, extraction returns exactly `k` |
| KeyResolver.KeyBeforeSlash | new.py:109-111 | a URL `prefix/integration/<key>` followed by `/...` or the end yields `<key>` when the prefix holds no earlier match |
| KeyResolver.NoMatchWithout | new.py:112 | a URL that lacks some character of the marker yields no match |
| KeyResolver.NoMatchInSlashFree | new.py:109 | no match can start inside a slash-free stretch, since the marker begins with `/` |
| KeyResolver.EventsHostHasNoMatch | new.py:104 | the `https://events.pagerduty.com` prefix holds no match, whatever follows it |
| KeyResolver.EventsEndpointExample | new.py:103-104 | `https://events.pagerduty.com/integration/ABC123/enqueue` yields key `ABC123` |
| KeyResolver.OtherPathExample | new.py:105 | a URL with no integration path yields no key |
| OffsetPaging.FetchFrom | new.py:60-91 | the first request is at the start offset; a 429 is retried at the same offset, and any other page advances the offset by 100; the loop stops at the first page without `more` (complete) or the first other HTTP error (fatal, with that status); it runs to the end of the script only if neither occurs |
| OffsetPaging.FetchedPages | new.py:75-84 | the pages the loop consumed are exactly the pages before the first stop, that stop included |
| OffsetPaging.RequestedOffsets | new.py:58-89 | the k-th request is at the start offset plus 100 times the number of pages answered before it |
| OffsetPaging.PagesOfSnoc | new.py:89 | only page answers, never 429s, add to the number of pages consumed |
| OffsetPaging.PageOffsetsIncrease | new.py:89 | after a page is answered, every later request asks for a strictly larger offset |
| OffsetPaging.PagesOfPrefixMonotone | new.py:89 | a prefix of the answers holds no more pages than the whole |
| OffsetPaging.RateLimitRetriesSameOffset | new.py:68-73 | the request after a 429 repeats the same offset |
| OffsetPaging.Collect | all.py:48-71 | the collected items exist iff a last page comes before any HTTP error, and they are all items of the pages up to it, in order; the fetch aborts iff an HTTP error comes before any last page, carrying that response's status (`raise_for_status` ends the loop), and is unfinished iff no response stops it; each case agrees with the first stopping response, `StopOutcome` |
| OffsetPaging.FetchedOutcome | new.py:74-88 | the loop's outcome is the outcome of the first stopping response, as an independent definition gives it |
| OffsetPaging.Stops | all.py:52-66 | the loop makes another request only after a 429 (`continue`) or a page whose `more` is true; an HTTP error (`raise_for_status`) or a last page ends it |
| OffsetPaging.StopOutcomeFirstStop | all.py:48-66 | the loop ends with an HTTP error exactly when one comes before any other stopping response, carrying that response's status, and stays unfinished exactly when no response stops it |
| OffsetPaging.RateLimitTransparent | all.py:52-56 | inserting a 429 anywhere changes neither the outcome nor the pages consumed |
| OffsetPaging.CollectIgnoresRateLimit | all.py:90-94 | inserting a 429 anywhere leaves the collected result unchanged |
| OffsetPaging.CollectSinglePage | all.py:64-65 | a single page without `more` yields exactly its items |
| KeyIndex.TeamsMap | all.py:61-62 | the team map has at most as many entries as there are teams |
| KeyIndex.TeamsMapDomain | all.py:61-62 | an id is in the team map iff some team has that id |
| KeyIndex.TeamsMapLastWins | all.py:61-62 | the name of an id is the name of the last team with that id |
| KeyIndex.TeamsMapSpec | all.py:61-62 | the team map holds only listed ids, and each maps to its last team's name, for all ids at once |
| KeyIndex.IndexBy | new.py:83-84 | no empty integration key is ever indexed |
| KeyIndex.IndexDomain | all.py:114-119 | a key is indexed iff some service lists it as a non-empty integration key |
| KeyIndex.IndexLastWins | new.py:77-84 | a key maps to the information of the last service that lists it |
| KeyIndex.IndexSpec | all.py:100-124 | both the domain and the last-write-wins property, for all keys at once |
| CloudWatch.SafeLenActions | new.py:143-150 | the count is 0 iff actions are missing, null or empty; otherwise it is the list's length |
| CloudWatch.AlarmName | new.py:164 | `alarm.get("AlarmName", "<no-name>")`: the alarm's name, or `<no-name>` when it has none |
| CloudWatch.ActionsOf | all.py:180 | `alarm.get("AlarmActions") or []` has length `safe_len_alarm_actions(alarm)`, so the two scripts' "no actions" tests agree |
| CloudWatch.Gathered | new.py:119-127 | the items a paginator delivered; nothing when no page came |
| CloudWatch.GatheredMembers | all.py:155-161 | an item is gathered iff it is on some delivered page |
| CloudWatch.IsSnsTopic | new.py:185-189 | an action is followed iff it is a string starting with `arn:aws:sns:`; every other action is skipped |
| CloudWatch.CountSns | new.py:184-189 | the number of SNS-topic actions is 0 iff no action is a string starting with `arn:aws:sns:` |
| CloudWatch.TopicName | new.py:191 | the topic name is a `:`-free suffix of the ARN that starts right after its last `:` |
| CloudWatch.TopicNameOfArn | all.py:204 | `<anything>:<name>` has topic name `<name>` |
| CloudWatch.HitKey | new.py:196-202 | a subscription gives a key iff its endpoint contains `pagerduty` and the regex finds a key; that key is non-empty and slash-free |
| CloudWatch.CountHits | all.py:210-219 | the hit count is 0 iff no subscription is a PagerDuty hit |
| CloudWatch.PagerDutyKeys | new.py:195-203 | the keys are at most one per subscription, each non-empty and slash-free |
| CloudWatch.PagerDutyKeysCount | new.py:195-203 | there is exactly one key per PagerDuty hit |
| CloudWatch.PagerDutyKeysAppend | all.py:210-219 | the keys of two subscription lists together are the keys of each, in order |
| CloudWatch.PagerDutyKeysSingle | new.py:196-203 | one subscription gives its own key if it is a hit, and nothing otherwise |
| CloudWatch.MarkerWithoutKeyIsNoHit | new.py:200-202 | an endpoint that mentions `pagerduty` but has no integration path is skipped |
| TeamReport.ServiceLookup | new.py:49-93 | the lookup loads iff the paging completes, and aborts iff the paging does, with the same status (so, by `OffsetPaging.Collect`, iff an HTTP error precedes the last page); the keys are those the consumed services list, each mapped to the last such service's id and name |
| TeamReport.ServiceFor | new.py:204 | a hit's service is its lookup entry, or NOT_FOUND for both id and name on a miss |
| TeamReport.TopicRows | new.py:195-226 | at least one row per topic, all carrying the alarm and topic columns; no hit gives one row with empty key and service; otherwise one row per key in subscription order, with the looked-up service or NOT_FOUND |
| TeamReport.ActionRows | new.py:184-226 | at least one row per SNS action, none iff there is no SNS action, and each row's topic is an SNS action of the alarm; `TeamReport.ActionRowsAreTopicRows` gives the rows themselves |
| TeamReport.ActionRowsAreTopicRows | new.py:184-226 | the rows of an alarm's actions are, in action order, the topic rows of each SNS action built from the subscriptions listed for it; non-SNS actions add nothing |
| TeamReport.AlarmRows | new.py:164-226 | no actions gives the single NO_ACTION row with empty columns; otherwise the rows are each action's topic rows (`ActionTopicRows`) concatenated in action order, all with the alarm's status; no rows exactly when the alarm has actions but none is an SNS topic |
| TeamReport.ActionTopicRows | new.py:184-226 | a non-SNS action contributes no rows; an SNS topic contributes one row per PagerDuty key among its listed subscriptions, or one row when there is none, each carrying the topic's ARN, name and the alarm's status |
| TeamReport.RegionRows | new.py:162-226 | every row of a region carries that region |
| TeamReport.Report | new.py:157-227 | every row carries one of the scanned regions |
| TeamReport.Run | new.py:152-159 | the report exists iff the PagerDuty lookup loaded, and then it is the region loop run over that lookup; the run aborts iff the lookup aborted, with its status |
| TeamReport.RunAbortsOnHttpError | new.py:74 | an HTTP error in the services paging, before any last page, ends the whole run with that response's status |
| TeamReport.TopicRowsCount | new.py:195-226 | a topic contributes max(1, number of PagerDuty hits) rows, and the single row of a topic without hits has an empty key |
| TeamReport.RegionRowsAppend | new.py:162 | the rows of a region are the rows of its alarms, concatenated in listing order |
| TeamReport.RegionRowsSingle | new.py:161-164 | the rows of a region holding one alarm are that alarm's rows |
| TeamReport.ReportAppend | new.py:159 | the report is the per-region rows concatenated in region order |
| TeamReport.FailedRegionIsEmpty | new.py:129-141 | a region whose alarm listing fails before any page contributes no rows |
| TeamReport.FailedRegionContributesNothing | new.py:139-141 | a region that fails that way leaves the other regions' rows unchanged |
| AccountReport.ResolveTeam | all.py:105-112 | a service without teams gets UNKNOWN/UNKNOWN; otherwise the first team's id, named from the team map or UNKNOWN |
| AccountReport.EntryOf | all.py:119-124 | the lookup entry carries the service's id and name and its resolved team |
| CloudWatch.StatusOf | all.py:197 | the status is ENABLED iff ActionsEnabled (false when absent), and DISABLED otherwise; new.py:180-181 computes the same column |
| AccountReport.FetchTeams | all.py:42-71 | the team map loads iff the teams paging completes, and aborts iff the paging does, with the same status (so iff an HTTP error precedes the last page); each id maps to the name of the last team listed with it, and the map holds no other id |
| AccountReport.UnlistedTeamIsUnknown | all.py:107-109 | a service whose first team is not among the listed teams keeps that team id and gets the team name UNKNOWN |
| AccountReport.ServiceLookup | all.py:74-133 | a teams failure aborts with its status, and so does a services failure once the teams loaded; it aborts in no other case; the lookup loads iff both pagings complete; its keys are those the services list, each mapped to the last such service with its resolved team |
| AccountReport.TopicRows | all.py:207-252 | like `TeamReport.TopicRows`, with the team columns too; a lookup miss gives NOT_FOUND service and UNKNOWN team |
| AccountReport.FailsShift | all.py:199-206 | proof helper for `ActionRows`: re-indexes the failure condition of the action loop (some action's listing fails iff the first action's does or some later one's does) |
| AccountReport.ActionRows | all.py:199-252 | the run fails iff some SNS action's subscription listing fails; otherwise at least one row per SNS action, none iff there is no SNS action, and each topic is an SNS action of the alarm; `AccountReport.ActionRowsAreTopicRows` gives the rows themselves |
| AccountReport.ActionRowsAreTopicRows | all.py:199-252 | when no listing raised, the rows are, in action order, the topic rows of each SNS action built from its listed subscriptions; non-SNS actions add nothing |
| AccountReport.AlarmRows | all.py:179-252 | no actions gives the single NO_ACTION row with ten columns; otherwise the run raises (None) iff the subscription listing of one of its SNS topics fails, and on success the rows are each action's topic rows (`ActionTopicRows`) concatenated in action order, all with the alarm's status, and none iff no action is an SNS topic |
| AccountReport.ActionTopicRows | all.py:199-252 | a non-SNS action contributes no rows; an SNS topic contributes one row per PagerDuty key among its listed subscriptions, or one row when there is none, each carrying the topic's ARN, name and the alarm's status |
| AccountReport.RegionRows | all.py:178-252 | every row of a region carries that region, and the region fails iff some alarm's rows fail |
| AccountReport.RegionRowsAreAlarmRows | all.py:178-252 | when it succeeds, a region's rows are its alarms' rows concatenated in alarm order |
| AccountReport.Report | all.py:174-252 | the run ends without a report iff some region's alarm listing fails or some of its alarms' rows fail; otherwise every row carries a scanned region |
| AccountReport.ReportIsRegionRows | all.py:176-252 | a report is the regions' rows concatenated in region order |
| AccountReport.RegionRowsSucceed | all.py:178 | if no subscription listing fails, every region's rows exist |
| AccountReport.ReportSucceeds | all.py:176-178 | if no listing fails, the report exists |
| AccountReport.Run | all.py:167-176 | the report exists iff both PagerDuty pagings completed, and then it is the region loop run over the built index; the run aborts iff building the index aborted, with its status |
| AccountReport.RunAbortsOnHttpError | all.py:169 | an HTTP error in the teams paging ends the run with its status, and so does one in the services paging after the teams completed |
| AccountReport.IndexExample | all.py:105-124 | a key of a service with team T1 maps to the service and T1's name |
| AccountReport.TeamlessServiceExample | all.py:110-112 | a key of a teamless service maps to UNKNOWN team id and name |
| AlarmInventory.ListFrom | aws_alarms.py:18-28 | each call after the first carries the previous response's NextToken, which was non-empty; the loop breaks at the first response without a token, and runs to the end of the script only if none lacks one |
| AlarmInventory.Truthy | aws_alarms.py:19-27 | a token continues the loop iff it is present and non-empty |
| AlarmInventory.ListAlarms | aws_alarms.py:15-22 | the first call carries no token and every later call carries a non-empty one |
| AlarmInventory.ListedAlarms | aws_alarms.py:24 | the accumulated alarms are those of every response up to the first one without a token, in order |
| AlarmInventory.ArnStrings | aws_alarms.py:41 | the ARNs exist iff every action is a string, and then they list the actions in order |
| AlarmInventory.Classify | aws_alarms.py:31-43 | missing or empty actions give NoActions with an empty ARN column; otherwise the row fails iff some action is not a string, and its status is Enabled or Disabled per ActionsEnabled; the name is AlarmName or empty |
| AlarmInventory.ClassifyArnsRoundTrip | aws_alarms.py:41 | when no ARN contains `;`, the ARN column splits back into exactly the alarm's actions |
| AlarmInventory.RegionRows | aws_alarms.py:31-43 | a region's rows fail iff some alarm's row fails; otherwise there is one row per alarm, in order, each its alarm's classification |
| AlarmInventory.Inventory | aws_alarms.py:10-43 | the CSV is written iff every region's NextToken loop reached its `break` and all its alarms joined, and then its rows are the regions' rows in region order, each region's in alarm order; a TypeError outcome names a listed region with a failing join, and an unfinished one names a region whose responses ran out |
| AlarmInventory.InventoryCount | aws_alarms.py:10-43 | a written CSV has one row per alarm that the regions' NextToken loops listed |

## Left out

- The AWS Lambda handlers of the repository are not part of this model.
- Process I/O is out: credentials, the PD_TOKEN and PD_TEAM_ID checks, progress
  printing, and writing the Excel or CSV file. The model yields the rows in the order
  they would be written.
- The region list is a parameter. `describe_regions` is not modelled.
- Sleeps are not modelled: the `Retry-After` wait, the 0.2 s throttle, and boto3's own
  retries. A 429 is modelled only as "retry at the same offset".
- OffsetPaging.FetchFrom: every 429 is a retry. The scripts first run
  `int(resp.headers.get("Retry-After", "5"))` and `time.sleep(wait)` (new.py:70-72,
  all.py:53-55 and 91-93). A header `int` cannot parse, such as the HTTP-date form or
  "1.5", and a negative value that `time.sleep` rejects, both raise ValueError and end
  the run. Those 429s are not modelled, so `OffsetPaging.RateLimitTransparent` and
  `OffsetPaging.CollectIgnoresRateLimit` speak only of 429s with a usable header.
- TeamReport.ActionRows, AccountReport.ActionRows: the subscription listing is a
  function of (topic ARN, region). The scripts call `list_subscriptions_by_topic` again
  for every SNS action, so two alarms naming one topic could see one failed listing and
  one successful one; the model gives both the same listing.
- The `team_ids[]` and `include[]` query parameters of the services request are left
  out. The PagerDuty server is assumed to return only the requested team's services,
  with their integrations and teams; each script stands for those answers.
- Absent fields of a PagerDuty JSON object are not modelled. Service and team ids and
  names are always strings, and a missing or null `integration_key` counts as the
  empty, falsy key. An absent `teams` or `services` list is treated as empty.
- A missing `MetricAlarms` key in `aws_alarms.py` (a KeyError) is not modelled. Neither
  is a failing `describe_alarms` call there: every modelled response is a success.
- A `null` Endpoint in `all.py` would make `"pagerduty" in endpoint` raise. The model
  reads it as the empty string, as `new.py` does.
- `AlarmName` is an `Option`, so a missing name gives `<no-name>` in the two
  reconciliation reports and an empty cell in `aws_alarms.py`. `ActionsEnabled` is a
  boolean that is false when absent; a non-boolean truthy value is not modelled.
- Python regex backtracking is not modelled. Only the leftmost-match result of the
  one fixed pattern is stated.
- TeamReport.Report: states only that rows carry scanned regions; its composition
  from regions and alarms is the separate `ReportAppend` and `RegionRowsAppend` lemmas.
- AlarmInventory.Inventory: the contract does not say which region's failure comes
  first when several fail.
- TeamReport.RegionRows: states only the region column of its rows. The rows' order
  and content follow from the lemmas `TeamReport.RegionRowsAppend` and
  `TeamReport.RegionRowsSingle` with the contract of `TeamReport.AlarmRows`.
- TeamReport.Report: exceptions other than ClientError are not modelled, so it always
  returns rows. The run would end on any of these:
  - a botocore error that is not a ClientError, such as EndpointConnectionError for
    a region, since new.py catches only ClientError;
  - a requests Timeout (the `timeout=30` of the services call) or ConnectionError;
  - a response body that `resp.json()` cannot decode (new.py, and all.py's two
    PagerDuty loops).
  The `Response` cases are 429, an HTTP error status, and a decoded page.
- AccountReport.Report: likewise models only the ClientError and HTTP-status failures;
  connection errors, timeouts and undecodable bodies are left out.

=== FILE: account_report.dfy ===
/** all.py: the report across all teams. All teams are fetched first, then all
    services with their integrations and teams; the index maps each integration
    key to the service and its resolved team. all.py catches no ClientError, so a
    failed alarm or subscription listing ends the run without a report (None). */
module AccountReport {
  import opened Wrappers
  import opened Strings
  import opened OffsetPaging
  import opened KeyIndex
  import opened CloudWatch
  import opened Seqs

  /** The lookup value `{service_id, service_name, team_id, team_name}`. */
  datatype PdEntry = PdEntry(serviceId: string, serviceName: string, teamId: string, teamName: string)

  /** One spreadsheet row, columns in the order of the row dictionaries. */
  datatype Row = Row(
    region: string,
    alarmName: string,
    status: string,
    topicArn: string,
    topicName: string,
    integrationKey: string,
    serviceName: string,
    serviceId: string,
    teamName: string,
    teamId: string)

  const Unknown: string := "UNKNOWN"

  /** The team of a service: the first of its teams, named from the teams map, or
      UNKNOWN for both when it has none; a first team missing from the map (a team
      the token may not read) keeps its id and gets the name UNKNOWN. */
  function ResolveTeam(s: Service, teams: map<string, string>): (t: (string, string))
    ensures |s.teamIds| == 0 ==> t == (Unknown, Unknown)
    ensures |s.teamIds| > 0 ==> t.0 == s.teamIds[0]
    ensures |s.teamIds| > 0 && s.teamIds[0] in teams ==> t.1 == teams[s.teamIds[0]]
    ensures |s.teamIds| > 0 && s.teamIds[0] !in teams ==> t.1 == Unknown
  {
    if |s.teamIds| > 0 then
      var id := s.teamIds[0];
      (id, if id in teams then teams[id] else Unknown)
    else (Unknown, Unknown)
  }

  function EntryOf(s: Service, teams: map<string, string>): (e: PdEntry)
    ensures e.serviceId == s.id && e.serviceName == s.name
    ensures (e.teamId, e.teamName) == ResolveTeam(s, teams)
  {
    var t := ResolveTeam(s, teams);
    PdEntry(s.id, s.name, t.0, t.1)
  }

  /** `fetch_all_pd_teams`: the offset-paginated teams fetch folded into
      `teams[id] = name`. */
  function FetchTeams(script: seq<Response<Team>>): (r: Loaded<map<string, string>>)
    ensures r.Loaded? <==> Collect(script).Loaded?
    ensures r.Aborted? <==> Collect(script).Aborted?
    ensures r.Aborted? ==> r.status == Collect(script).status
    ensures r.Loaded? ==> var teams := Flatten(PagesUntilStop(script));
              forall i :: 0 <= i < |teams| && LastTeamWithId(teams, i) ==>
                teams[i].id in r.value && r.value[teams[i].id] == teams[i].name
    ensures r.Loaded? ==> var teams := Flatten(PagesUntilStop(script));
              forall id :: id in r.value ==> exists i :: 0 <= i < |teams| && teams[i].id == id
  {
    match Collect(script)
    case Loaded(teams) =>
      TeamsMapSpec(teams);
      Loaded(TeamsMap(teams))
    case Aborted(status) => Aborted(status)
    case ScriptEnded => ScriptEnded
  }

  /** A service whose first team is not among the listed teams keeps that team's
      id and gets the team name UNKNOWN. */
  lemma UnlistedTeamIsUnknown(teamScript: seq<Response<Team>>, teams: seq<Team>, s: Service)
    requires FetchTeams(teamScript).Loaded? && teams == Flatten(PagesUntilStop(teamScript))
    requires |s.teamIds| > 0 && forall i :: 0 <= i < |teams| ==> teams[i].id != s.teamIds[0]
    ensures EntryOf(s, FetchTeams(teamScript).value) == PdEntry(s.id, s.name, s.teamIds[0], Unknown)
  {
    assert s.teamIds[0] !in FetchTeams(teamScript).value;
  }

  /** `fetch_all_pd_services_with_integrations`: the teams first (an error there
      ends the run), then the services, folded into `lookup[key] = entry`. */
  function ServiceLookup(teamScript: seq<Response<Team>>, serviceScript: seq<Response<Service>>)
    : (r: Loaded<map<string, PdEntry>>)
    ensures FetchTeams(teamScript).Aborted? ==> r == Aborted(FetchTeams(teamScript).status)
    ensures FetchTeams(teamScript).Loaded? && Collect(serviceScript).Aborted? ==>
              r == Aborted(Collect(serviceScript).status)
    ensures r.Aborted? <==> FetchTeams(teamScript).Aborted? ||
                            (FetchTeams(teamScript).Loaded? && Collect(serviceScript).Aborted?)
    ensures r.Loaded? <==> FetchTeams(teamScript).Loaded? && Collect(serviceScript).Loaded?
    ensures r.Loaded? ==> var services := Flatten(PagesUntilStop(serviceScript));
              (forall key :: key in r.value <==> exists i :: 0 <= i < |services| && Lists(services[i], key)) &&
              (forall i, key :: 0 <= i < |services| && Lists(services[i], key) && LastListing(services, i, key) ==>
                 key in r.value && r.value[key] == EntryOf(services[i], FetchTeams(teamScript).value))
  {
    match FetchTeams(teamScript)
    case Aborted(status) => Aborted(status)
    case ScriptEnded => ScriptEnded
    case Loaded(teams) =>
      match Collect(serviceScript)
      case Loaded(services) =>
        var info := s => EntryOf(s, teams);
        IndexSpec(services, info);
        Loaded(IndexBy(services, info))
      case Aborted(status) => Aborted(status)
      case ScriptEnded => ScriptEnded
  }

  /** The default entry of a lookup miss. */
  const Missing: PdEntry := PdEntry(NotFound, NotFound, Unknown, Unknown)

  /** The rows of one SNS topic whose subscriptions were listed: one per PagerDuty
      hit, in subscription order, or a single row with empty key, service and team
      when none hits. */
  function TopicRows(region: string, name: string, status: string, arn: string,
                     subs: seq<Subscription>, lookup: map<string, PdEntry>): (rows: seq<Row>)
    ensures |rows| >= 1
    ensures forall i :: 0 <= i < |rows| ==>
              rows[i].region == region && rows[i].alarmName == name && rows[i].status == status &&
              rows[i].topicArn == arn && rows[i].topicName == TopicName(arn)
    ensures PagerDutyKeys(subs) == [] ==>
              |rows| == 1 && rows[0].integrationKey == "" && rows[0].serviceName == "" &&
              rows[0].serviceId == "" && rows[0].teamName == "" && rows[0].teamId == ""
    ensures PagerDutyKeys(subs) != [] ==> |rows| == |PagerDutyKeys(subs)|
    ensures PagerDutyKeys(subs) != [] ==> forall i :: 0 <= i < |rows| ==>
              && rows[i].integrationKey == PagerDutyKeys(subs)[i]
              && var e := if rows[i].integrationKey in lookup then lookup[rows[i].integrationKey] else Missing;
                 rows[i].serviceId == e.serviceId && rows[i].serviceName == e.serviceName &&
                 rows[i].teamId == e.teamId && rows[i].teamName == e.teamName
  {
    var keys := PagerDutyKeys(subs);
    if |keys| == 0 then [Row(region, name, status, arn, TopicName(arn), "", "", "", "", "")]
    else
      seq(|keys|, i requires 0 <= i < |keys| =>
        var e := if keys[i] in lookup then lookup[keys[i]] else Missing;
        Row(region, name, status, arn, TopicName(arn), keys[i], e.serviceName, e.serviceId, e.teamName, e.teamId))
  }

  /** The SNS action `j` of `actions` is a topic whose subscription listing failed. */
  predicate ListingFails(actions: seq<Action>, j: int, region: string,
                         listings: (string, string) -> Listing<Subscription>)
    requires 0 <= j < |actions|
  {
    IsSnsTopic(actions[j]) && listings(actions[j].arn, region).failed
  }

  lemma FailsShift(actions: seq<Action>, region: string, listings: (string, string) -> Listing<Subscription>)
    requires |actions| > 0
    ensures (exists j :: 0 <= j < |actions| && ListingFails(actions, j, region, listings)) <==>
            ListingFails(actions, 0, region, listings) ||
            exists j :: 0 <= j < |actions| - 1 && ListingFails(actions[1..], j, region, listings)
  {
    if exists j :: 0 <= j < |actions| - 1 && ListingFails(actions[1..], j, region, listings) {
      var j :| 0 <= j < |actions| - 1 && ListingFails(actions[1..], j, region, listings);
      assert ListingFails(actions, j + 1, region, listings);
    }
    if exists j :: 0 < j < |actions| && ListingFails(actions, j, region, listings) {
      var j :| 0 < j < |actions| && ListingFails(actions, j, region, listings);
      assert ListingFails(actions[1..], j - 1, region, listings);
    }
  }

  /** The rows of an alarm's actions, in action order, or None when listing the
      subscriptions of one of its SNS topics raised. */
  function ActionRows(region: string, name: string, status: string, actions: seq<Action>,
                      listings: (string, string) -> Listing<Subscription>,
                      lookup: map<string, PdEntry>): (r: Option<seq<Row>>)
    ensures r.None? <==> exists j :: 0 <= j < |actions| && ListingFails(actions, j, region, listings)
    ensures r.Some? ==> |r.value| >= CountSns(actions)
    ensures r.Some? ==> (r.value == [] <==> CountSns(actions) == 0)
    ensures r.Some? ==> forall i :: 0 <= i < |r.value| ==>
              r.value[i].region == region && r.value[i].alarmName == name && r.value[i].status == status &&
              StartsWith(r.value[i].topicArn, SnsArnPrefix) && ArnAction(r.value[i].topicArn) in actions
    decreases |actions|
  {
    if |actions| == 0 then Some([])
    else
      var rest := ActionRows(region, name, status, actions[1..], listings, lookup);
      FailsShift(actions, region, listings);
      if !IsSnsTopic(actions[0]) then
        assert forall a :: a in actions[1..] ==> a in actions;
        rest
      else
        var listing := listings(actions[0].arn, region);
        if listing.failed then None
        else if rest.None? then None
        else
          var head := TopicRows(region, name, status, actions[0].arn, Gathered(listing), lookup);
          assert forall a :: a in actions[1..] ==> a in actions;
          assert forall i :: 0 <= i < |head| ==> head[i].topicArn == actions[0].arn;
          Some(head + rest.value)
  }

  /** The rows one action contributes once its subscriptions are listed: its
      topic's rows if it is an SNS topic, and none otherwise. */
  function ActionTopicRows(region: string, name: string, status: string, act: Action,
                           listings: (string, string) -> Listing<Subscription>,
                           lookup: map<string, PdEntry>): (rows: seq<Row>)
    ensures !IsSnsTopic(act) ==> rows == []
    ensures IsSnsTopic(act) ==> forall i :: 0 <= i < |rows| ==>
              rows[i].topicArn == act.arn && rows[i].topicName == TopicName(act.arn) && rows[i].status == status
    ensures IsSnsTopic(act) ==>
              var keys := PagerDutyKeys(Gathered(listings(act.arn, region)));
              |rows| == (if keys == [] then 1 else |keys|)
  {
    if IsSnsTopic(act) then TopicRows(region, name, status, act.arn, Gathered(listings(act.arn, region)), lookup)
    else []
  }

  /** When no listing raised, the rows of an alarm's actions are each action's
      topic rows, concatenated in action order. */
  lemma {:induction false} ActionRowsAreTopicRows(region: string, name: string, status: string, actions: seq<Action>,
                                                  listings: (string, string) -> Listing<Subscription>,
                                                  lookup: map<string, PdEntry>)
    ensures ActionRows(region, name, status, actions, listings, lookup).Some? ==>
            ActionRows(region, name, status, actions, listings, lookup).value ==
            FlatMap(actions, (act: Action) => ActionTopicRows(region, name, status, act, listings, lookup))
    decreases |actions|
  {
    if |actions| > 0 {
      ActionRowsAreTopicRows(region, name, status, actions[1..], listings, lookup);
    }
  }

  /** The rows of one alarm, or None if a subscription listing raised. */
  function AlarmRows(region: string, alarm: Alarm,
                     listings: (string, string) -> Listing<Subscription>,
                     lookup: map<string, PdEntry>): (r: Option<seq<Row>>)
    ensures ActionsOf(alarm) == [] ==> r == Some([Row(region, AlarmName(alarm), NoAction, "", "", "", "", "", "", "")])
    ensures ActionsOf(alarm) != [] && r.Some? ==> forall i :: 0 <= i < |r.value| ==>
              r.value[i].status == (if alarm.actionsEnabled then Enabled else Disabled) && r.value[i].topicArn != ""
    ensures r.Some? ==> (r.value == [] <==> ActionsOf(alarm) != [] && CountSns(ActionsOf(alarm)) == 0)
    ensures r.Some? ==> forall i :: 0 <= i < |r.value| ==>
              r.value[i].region == region && r.value[i].alarmName == AlarmName(alarm)
    ensures r.None? <==> ActionsOf(alarm) != [] &&
                         exists j :: 0 <= j < |ActionsOf(alarm)| && ListingFails(ActionsOf(alarm), j, region, listings)
    ensures ActionsOf(alarm) != [] && r.Some? ==>
              r.value == FlatMap(ActionsOf(alarm),
                                 (act: Action) => ActionTopicRows(region, AlarmName(alarm), StatusOf(alarm), act, listings, lookup))
  {
    var actions := ActionsOf(alarm);
    if actions == [] then Some([Row(region, AlarmName(alarm), NoAction, "", "", "", "", "", "", "")])
    else
      ActionRowsAreTopicRows(region, AlarmName(alarm), StatusOf(alarm), actions, listings, lookup);
      ActionRows(region, AlarmName(alarm), StatusOf(alarm), actions, listings, lookup)
  }

  /** The rows of a region's alarms, in alarm order, or None if any raised. */
  function RegionRows(region: string, alarms: seq<Alarm>,
                      listings: (string, string) -> Listing<Subscription>,
                      lookup: map<string, PdEntry>): (r: Option<seq<Row>>)
    ensures r.Some? ==> forall i :: 0 <= i < |r.value| ==> r.value[i].region == region
    ensures r.None? <==> exists k :: 0 <= k < |alarms| && AlarmRows(region, alarms[k], listings, lookup).None?
    decreases |alarms|
  {
    if |alarms| == 0 then Some([])
    else
      var head := AlarmRows(region, alarms[0], listings, lookup);
      var rest := RegionRows(region, alarms[1..], listings, lookup);
      assert forall k :: 1 <= k < |alarms| ==> alarms[1..][k - 1] == alarms[k];
      if head.None? || rest.None? then None else Some(head.value + rest.value)
  }

  /** The loop of `main`, or None when `cw_alarms` or `sns_subscriptions` raised. */
  function Report(regions: seq<string>, alarmListings: string -> Listing<Alarm>,
                  listings: (string, string) -> Listing<Subscription>,
                  lookup: map<string, PdEntry>): (r: Option<seq<Row>>)
    ensures (exists j :: 0 <= j < |regions| && alarmListings(regions[j]).failed) ==> r.None?
    ensures r.None? <==>
              exists j :: 0 <= j < |regions| &&
                (alarmListings(regions[j]).failed ||
                 RegionRows(regions[j], Gathered(alarmListings(regions[j])), listings, lookup).None?)
    ensures r.Some? ==> forall i :: 0 <= i < |r.value| ==> r.value[i].region in regions
    decreases |regions|
  {
    if |regions| == 0 then Some([])
    else
      var region := regions[0];
      var listing := alarmListings(region);
      var rest := Report(regions[1..], alarmListings, listings, lookup);
      assert forall j :: 1 <= j < |regions| ==> regions[1..][j - 1] == regions[j];
      if listing.failed then None
      else
        var head := RegionRows(region, Gathered(listing), listings, lookup);
        if head.None? || rest.None? then None else Some(head.value + rest.value)
  }

  /** A region's rows are its alarms' rows, concatenated in alarm order. */
  lemma {:induction false} RegionRowsAreAlarmRows(region: string, alarms: seq<Alarm>,
                                                  listings: (string, string) -> Listing<Subscription>,
                                                  lookup: map<string, PdEntry>)
    ensures RegionRows(region, alarms, listings, lookup).Some? ==>
            RegionRows(region, alarms, listings, lookup).value ==
            FlatMap(alarms, (a: Alarm) => AlarmRows(region, a, listings, lookup).GetOr([]))
    decreases |alarms|
  {
    if |alarms| > 0 {
      RegionRowsAreAlarmRows(region, alarms[1..], listings, lookup);
    }
  }

  /** The report is the regions' rows, concatenated in region order. */
  lemma {:induction false} ReportIsRegionRows(regions: seq<string>, alarmListings: string -> Listing<Alarm>,
                                              listings: (string, string) -> Listing<Subscription>,
                                              lookup: map<string, PdEntry>)
    ensures Report(regions, alarmListings, listings, lookup).Some? ==>
            Report(regions, alarmListings, listings, lookup).value ==
            FlatMap(regions, (reg: string) => RegionRows(reg, Gathered(alarmListings(reg)), listings, lookup).GetOr([]))
    decreases |regions|
  {
    if |regions| > 0 {
      ReportIsRegionRows(regions[1..], alarmListings, listings, lookup);
    }
  }

  /** With every listing succeeding, the run produces a report, and an alarm
      without actions contributes its NO_ACTION row. */
  lemma {:induction false} RegionRowsSucceed(region: string, alarms: seq<Alarm>,
                                             listings: (string, string) -> Listing<Subscription>,
                                             lookup: map<string, PdEntry>)
    requires forall arn, reg :: !listings(arn, reg).failed
    ensures RegionRows(region, alarms, listings, lookup).Some?
    decreases |alarms|
  {
    if |alarms| > 0 {
      RegionRowsSucceed(region, alarms[1..], listings, lookup);
      var actions := ActionsOf(alarms[0]);
      assert !exists j :: 0 <= j < |actions| && ListingFails(actions, j, region, listings);
    }
  }

  lemma {:induction false} ReportSucceeds(regions: seq<string>, alarmListings: string -> Listing<Alarm>,
                                          listings: (string, string) -> Listing<Subscription>,
                                          lookup: map<string, PdEntry>)
    requires forall reg :: !alarmListings(reg).failed
    requires forall arn, reg :: !listings(arn, reg).failed
    ensures Report(regions, alarmListings, listings, lookup).Some?
    decreases |regions|
  {
    if |regions| > 0 {
      ReportSucceeds(regions[1..], alarmListings, listings, lookup);
      RegionRowsSucceed(regions[0], Gathered(alarmListings(regions[0])), listings, lookup);
    }
  }

  /** `main`: the PagerDuty index is built first (an HTTP error there ends the
      run with its status), then the region loop; the loaded value is the report,
      or None when an AWS listing raised. */
  function Run(teamScript: seq<Response<Team>>, serviceScript: seq<Response<Service>>, regions: seq<string>,
               alarmListings: string -> Listing<Alarm>,
               listings: (string, string) -> Listing<Subscription>): (r: Loaded<Option<seq<Row>>>)
    ensures r.Loaded? <==> Collect(teamScript).Loaded? && Collect(serviceScript).Loaded?
    ensures r.Aborted? <==> ServiceLookup(teamScript, serviceScript).Aborted?
    ensures r.Aborted? ==> r.status == ServiceLookup(teamScript, serviceScript).status
    ensures r.Loaded? ==>
              r.value == Report(regions, alarmListings, listings, ServiceLookup(teamScript, serviceScript).value)
  {
    match ServiceLookup(teamScript, serviceScript)
    case Loaded(lookup) => Loaded(Report(regions, alarmListings, listings, lookup))
    case Aborted(status) => Aborted(status)
    case ScriptEnded => ScriptEnded
  }

  /** An HTTP error in the teams paging ends the run with its status; so does one
      in the services paging once the teams loaded. */
  lemma RunAbortsOnHttpError(teamScript: seq<Response<Team>>, serviceScript: seq<Response<Service>>,
                             regions: seq<string>, alarmListings: string -> Listing<Alarm>,
                             listings: (string, string) -> Listing<Subscription>)
    ensures StopOutcome(teamScript).Fatal? ==>
              Run(teamScript, serviceScript, regions, alarmListings, listings) == Aborted(StopOutcome(teamScript).status)
    ensures StopOutcome(teamScript) == Complete && StopOutcome(serviceScript).Fatal? ==>
              Run(teamScript, serviceScript, regions, alarmListings, listings) == Aborted(StopOutcome(serviceScript).status)
  {
  }

  /** Team T1 "Platform" and service S1 of team T1 with integration key K1 index
      K1 to (S1, its name, T1, "Platform"). */
  lemma IndexExample()
    ensures ServiceLookup([Page([Team("T1", "Platform")], false)],
                          [Page([Service("S1", "Checkout", ["T1"], ["K1"])], false)])
         == Loaded(map["K1" := PdEntry("S1", "Checkout", "T1", "Platform")])
  {
    var team := Team("T1", "Platform");
    var svc := Service("S1", "Checkout", ["T1"], ["K1"]);
    CollectSinglePage([team]);
    CollectSinglePage([svc]);
    FetchedPages([Page([team], false)], 0);
    FetchedPages([Page([svc], false)], 0);
    TeamsMapLastWins([team], 0);
    var r := ServiceLookup([Page([team], false)], [Page([svc], false)]);
    assert FetchTeams([Page([team], false)]).Loaded?;
    assert Flatten(PagesUntilStop([Page([team], false)])) == [team];
    assert FetchTeams([Page([team], false)]).value["T1"] == "Platform";
    assert r.Loaded?;
    assert Flatten(PagesUntilStop([Page([svc], false)])) == [svc];
    assert Lists(svc, "K1");
    assert LastListing([svc], 0, "K1");
    assert r.value["K1"] == EntryOf(svc, FetchTeams([Page([team], false)]).value);
    assert r.value.Keys == {"K1"};
    assert r.value == map["K1" := PdEntry("S1", "Checkout", "T1", "Platform")];
  }

  /** A service with no team is indexed with team UNKNOWN. */
  lemma TeamlessServiceExample()
    ensures ServiceLookup([Page([], false)], [Page([Service("S2", "Batch", [], ["K2"])], false)])
         == Loaded(map["K2" := PdEntry("S2", "Batch", Unknown, Unknown)])
  {
    var svc := Service("S2", "Batch", [], ["K2"]);
    CollectSinglePage<Team>([]);
    CollectSinglePage([svc]);
    FetchedPages([Page([svc], false)], 0);
    var r := ServiceLookup([Page([], false)], [Page([svc], false)]);
    assert FetchTeams([Page([], false)]).Loaded?;
    assert r.Loaded?;
    assert Flatten(PagesUntilStop([Page([svc], false)])) == [svc];
    assert Lists(svc, "K2");
    assert LastListing([svc], 0, "K2");
    assert r.value["K2"] == EntryOf(svc, FetchTeams([Page([], false)]).value);
    assert r.value.Keys == {"K2"};
    assert r.value == map["K2" := PdEntry("S2", "Batch", Unknown, Unknown)];
  }
}

=== FILE: alarm_inventory.dfy ===
/** aws_alarms.py: every alarm of every region, listed through the NextToken loop
    of `describe_alarms`, with its action status and its actions joined by ';'. */
module AlarmInventory {
  import opened Wrappers
  import opened Strings
  import opened CloudWatch
  import opened Seqs

  /** One `describe_alarms` answer: `MetricAlarms` and `NextToken` (may be absent). */
  datatype DescribeResponse = DescribeResponse(metricAlarms: seq<Alarm>, nextToken: Option<string>)

  /** What the loop did: the `NextToken` argument of each call (None for a call
      without one), the alarms accumulated, and whether it reached the `break`. */
  datatype Listed = Listed(tokens: seq<Option<string>>, alarms: seq<Alarm>, complete: bool)

  /** One CSV row: Region, AlarmName, ActionStatus, AlarmActionARNs. */
  datatype InventoryRow = InventoryRow(region: string, name: string, status: string, arns: string)

  const NoActions: string := "NoActions"
  const CsvEnabled: string := "Enabled"
  const CsvDisabled: string := "Disabled"
  const ArnSeparator: char := ';'

  /** A token Python treats as true: present and non-empty. */
  predicate Truthy(token: Option<string>): (b: bool)
    ensures b <==> token.Some? && |token.value| > 0
  {
    token.Some? && token.value != ""
  }

  /** The alarms of the responses up to and including the first one without a
      token. */
  function AlarmsUntilLast(script: seq<DescribeResponse>): (alarms: seq<Alarm>)
    decreases |script|
  {
    if |script| == 0 then []
    else if !Truthy(script[0].nextToken) then script[0].metricAlarms
    else script[0].metricAlarms + AlarmsUntilLast(script[1..])
  }

  /** The `while True` loop, its next call made with `token`; `script[k]` answers
      the k-th call. */
  function ListFrom(script: seq<DescribeResponse>, token: Option<string>): (l: Listed)
    ensures |l.tokens| <= |script|
    ensures |script| > 0 ==> |l.tokens| > 0 && l.tokens[0] == token
    ensures forall k :: 0 <= k < |l.tokens| - 1 ==>
              Truthy(script[k].nextToken) && l.tokens[k + 1] == script[k].nextToken
    ensures l.complete <==> |l.tokens| > 0 && !Truthy(script[|l.tokens| - 1].nextToken)
    ensures !l.complete ==> |l.tokens| == |script|
    decreases |script|
  {
    if |script| == 0 then Listed([], [], false)
    else if !Truthy(script[0].nextToken) then Listed([token], script[0].metricAlarms, true)
    else
      var rest := ListFrom(script[1..], script[0].nextToken);
      Listed([token] + rest.tokens, script[0].metricAlarms + rest.alarms, rest.complete)
  }

  /** The loop of one region: the first call carries no token. */
  function ListAlarms(script: seq<DescribeResponse>): (l: Listed)
    ensures |script| > 0 ==> |l.tokens| > 0 && l.tokens[0] == None
    ensures forall k :: 1 <= k < |l.tokens| ==> Truthy(l.tokens[k])
  {
    var l := ListFrom(script, None);
    assert forall k :: 1 <= k < |l.tokens| ==> l.tokens[k] == script[k - 1].nextToken && Truthy(script[k - 1].nextToken);
    l
  }

  /** The accumulated list is every page's alarms, in order, through the first
      page without a token. */
  lemma {:induction false} ListedAlarms(script: seq<DescribeResponse>, token: Option<string>)
    ensures ListFrom(script, token).alarms == AlarmsUntilLast(script)
    decreases |script|
  {
    if |script| > 0 && Truthy(script[0].nextToken) {
      ListedAlarms(script[1..], script[0].nextToken);
    }
  }

  /** The action ARNs as strings, or None when one is not a string (`";".join`
      raises TypeError). */
  function ArnStrings(actions: seq<Action>): (r: Option<seq<string>>)
    ensures r.None? <==> exists j :: 0 <= j < |actions| && actions[j].OtherAction?
    ensures r.Some? ==> |r.value| == |actions| && forall j :: 0 <= j < |actions| ==> actions[j] == ArnAction(r.value[j])
    decreases |actions|
  {
    if |actions| == 0 then Some([])
    else
      var rest := ArnStrings(actions[1..]);
      assert forall j :: 1 <= j < |actions| ==> actions[1..][j - 1] == actions[j];
      if actions[0].OtherAction? || rest.None? then None
      else Some([actions[0].arn] + rest.value)
  }

  /** The row of one alarm, or None when joining its actions raises. */
  function Classify(region: string, alarm: Alarm): (r: Option<InventoryRow>)
    ensures ActionsOf(alarm) == [] ==> r == Some(InventoryRow(region, alarm.name.GetOr(""), NoActions, ""))
    ensures ActionsOf(alarm) != [] ==>
              (r.None? <==> exists j :: 0 <= j < |ActionsOf(alarm)| && ActionsOf(alarm)[j].OtherAction?)
    ensures ActionsOf(alarm) != [] && r.Some? ==>
              r.value.region == region && r.value.name == alarm.name.GetOr("") &&
              r.value.status == (if alarm.actionsEnabled then CsvEnabled else CsvDisabled)
  {
    var actions := ActionsOf(alarm);
    var name := alarm.name.GetOr("");
    if actions == [] then Some(InventoryRow(region, name, NoActions, ""))
    else
      match ArnStrings(actions)
      case None => None
      case Some(arns) =>
        Some(InventoryRow(region, name, if alarm.actionsEnabled then CsvEnabled else CsvDisabled, Join(arns, [ArnSeparator])))
  }

  /** The ARN column splits back on ';' into the alarm's actions, provided no
      ARN itself contains ';'. */
  lemma ClassifyArnsRoundTrip(region: string, alarm: Alarm)
    requires forall j :: 0 <= j < |ActionsOf(alarm)| ==>
               ActionsOf(alarm)[j].ArnAction? && ArnSeparator !in ActionsOf(alarm)[j].arn
    requires ActionsOf(alarm) != []
    ensures Classify(region, alarm).Some?
    ensures var parts := Split(Classify(region, alarm).value.arns, ArnSeparator);
            |parts| == |ActionsOf(alarm)| &&
            forall j :: 0 <= j < |parts| ==> ActionsOf(alarm)[j] == ArnAction(parts[j])
  {
    var arns := ArnStrings(ActionsOf(alarm)).value;
    SplitJoin(arns, ArnSeparator);
  }

  /** The rows of one region's alarms, in listing order; None as soon as one
      alarm's join raises. */
  function RegionRows(region: string, alarms: seq<Alarm>): (r: Option<seq<InventoryRow>>)
    ensures r.None? <==> exists j :: 0 <= j < |alarms| && Classify(region, alarms[j]).None?
    ensures r.Some? ==> |r.value| == |alarms|
    ensures r.Some? ==> forall j :: 0 <= j < |alarms| ==> Some(r.value[j]) == Classify(region, alarms[j])
    decreases |alarms|
  {
    if |alarms| == 0 then Some([])
    else
      var rest := RegionRows(region, alarms[1..]);
      assert forall j :: 1 <= j < |alarms| ==> alarms[1..][j - 1] == alarms[j];
      match Classify(region, alarms[0])
      case None => None
      case Some(row) => if rest.None? then None else Some([row] + rest.value)
  }

  /** The rows of one region's listed alarms, or none when a join raised there. */
  function ListedRows(region: (string, seq<DescribeResponse>)): (rows: seq<InventoryRow>) {
    RegionRows(region.0, ListAlarms(region.1).alarms).GetOr([])
  }

  /** How the script ends: the CSV rows, the TypeError of a join, or the
      modelled responses of a region running out before its loop breaks. */
  datatype Outcome = Written(rows: seq<InventoryRow>) | JoinRaised | ScriptEnded

  /** A region whose loop reached its `break` and whose alarms all joined. */
  predicate RegionWritten(region: (string, seq<DescribeResponse>)) {
    var listed := ListAlarms(region.1);
    listed.complete && RegionRows(region.0, listed.alarms).Some?
  }

  /** The whole script: for each region (name and `describe_alarms` responses),
      in order, the rows of the alarms its loop listed. */
  function Inventory(regions: seq<(string, seq<DescribeResponse>)>): (r: Outcome)
    ensures r.Written? <==> forall i :: 0 <= i < |regions| ==> RegionWritten(regions[i])
    ensures r.JoinRaised? ==> exists i :: 0 <= i < |regions| && ListAlarms(regions[i].1).complete &&
                                RegionRows(regions[i].0, ListAlarms(regions[i].1).alarms).None?
    ensures r.ScriptEnded? ==> exists i :: 0 <= i < |regions| && !ListAlarms(regions[i].1).complete
    ensures r.Written? ==> r.rows == FlatMap(regions, ListedRows)
    decreases |regions|
  {
    if |regions| == 0 then Written([])
    else
      var rest := Inventory(regions[1..]);
      assert forall i :: 1 <= i < |regions| ==> regions[1..][i - 1] == regions[i];
      var listed := ListAlarms(regions[0].1);
      if !listed.complete then ScriptEnded
      else
        match RegionRows(regions[0].0, listed.alarms)
        case None => JoinRaised
        case Some(rows) =>
          if rest.Written? then
            assert ListedRows(regions[0]) == rows;
            assert FlatMap(regions, ListedRows) == rows + FlatMap(regions[1..], ListedRows);
            Written(rows + rest.rows)
          else rest
  }

  /** One row per listed alarm: the report is as long as all regions' listings together. */
  function ListedCount(regions: seq<(string, seq<DescribeResponse>)>): (n: nat)
    decreases |regions|
  {
    if |regions| == 0 then 0
    else |AlarmsUntilLast(regions[0].1)| + ListedCount(regions[1..])
  }

  lemma {:induction false} InventoryCount(regions: seq<(string, seq<DescribeResponse>)>)
    requires Inventory(regions).Written?
    ensures |Inventory(regions).rows| == ListedCount(regions)
    decreases |regions|
  {
    if |regions| > 0 {
      ListedAlarms(regions[0].1, None);
      InventoryCount(regions[1..]);
    }
  }
}

=== FILE: cloudwatch.dfy ===
/** The AWS side shared by the three scripts: CloudWatch alarms, their actions,
    SNS subscriptions, paginated listings, and which subscriptions carry a
    PagerDuty integration key. */
module CloudWatch {
  import opened Wrappers
  import opened Strings
  import KeyResolver
  import OffsetPaging
  import opened Seqs

  /** An element of `AlarmActions`: a string ARN, or a value of another type
      (the `isinstance(arn, str)` check skips those). */
  datatype Action = ArnAction(arn: string) | OtherAction

  /** A `MetricAlarms` entry: `AlarmName` (may be absent), `ActionsEnabled`
      (absent reads as false) and `AlarmActions` (may be absent or null). */
  datatype Alarm = Alarm(name: Option<string>, actionsEnabled: bool, actions: Option<seq<Action>>)

  /** A `Subscriptions` entry; a missing `Endpoint` reads as the empty string. */
  datatype Subscription = Subscription(endpoint: string)

  /** What a boto3 paginator delivered: the items of each page, in order, and
      whether a ClientError ended the iteration after those pages. */
  datatype Listing<T> = Listing(pages: seq<seq<T>>, failed: bool)

  const SnsArnPrefix: string := "arn:aws:sns:"
  const PagerDutyMarker: string := "pagerduty"
  const NoName: string := "<no-name>"

  /** The status and lookup-miss columns both report scripts write. */
  const NoAction: string := "NO_ACTION"
  const Enabled: string := "ENABLED"
  const Disabled: string := "DISABLED"
  const NotFound: string := "NOT_FOUND"

  /** `alarm.get("AlarmName", "<no-name>")`. */
  function AlarmName(a: Alarm): (name: string)
    ensures a.name.Some? ==> name == a.name.value
    ensures a.name.None? ==> name == NoName
  {
    a.name.GetOr(NoName)
  }

  /** `alarm.get("AlarmActions") or []`. */
  function ActionsOf(a: Alarm): (actions: seq<Action>)
    ensures |actions| == SafeLenActions(a)
    ensures actions == [] <==> SafeLenActions(a) == 0
    ensures a.actions.Some? ==> actions == a.actions.value
  {
    a.actions.GetOr([])
  }

  /** `"ENABLED" if ActionsEnabled else "DISABLED"`, an absent flag reading as false. */
  function StatusOf(a: Alarm): (status: string)
    ensures status == Enabled <==> a.actionsEnabled
    ensures status == Enabled || status == Disabled
  {
    if a.actionsEnabled then Enabled else Disabled
  }

  /** new.py's `safe_len_alarm_actions`: 0 for a missing, null or empty list. */
  function SafeLenActions(a: Alarm): (n: nat)
    ensures n == 0 <==> a.actions == None || a.actions == Some([])
    ensures a.actions.Some? ==> n == |a.actions.value|
  {
    var actions := a.actions;
    if actions.None? || actions.value == [] then 0 else |actions.value|
  }

  /** A string action starting with `arn:aws:sns:`; every other action is skipped. */
  predicate IsSnsTopic(act: Action): (b: bool)
    ensures b <==> act.ArnAction? && |SnsArnPrefix| <= |act.arn| && act.arn[..|SnsArnPrefix|] == SnsArnPrefix
  {
    act.ArnAction? && StartsWith(act.arn, SnsArnPrefix)
  }

  /** The number of SNS-topic actions. */
  function CountSns(actions: seq<Action>): (n: nat)
    ensures n <= |actions|
    ensures n == 0 <==> forall j :: 0 <= j < |actions| ==> !IsSnsTopic(actions[j])
    decreases |actions|
  {
    if |actions| == 0 then 0
    else (if IsSnsTopic(actions[0]) then 1 else 0) + CountSns(actions[1..])
  }

  /** The topic name column: the text after the last ':' of the ARN (new.py's
      `split(":")[-1]` guarded by `":" in arn`, all.py's `rsplit(":", 1)[-1]`). */
  function TopicName(arn: string): (name: string)
    ensures ':' !in name
    ensures |name| <= |arn| && name == arn[|arn| - |name|..]
    ensures |name| < |arn| ==> arn[|arn| - |name| - 1] == ':'
  {
    AfterLast(arn, ':')
  }

  /** An ARN `<region and account part>:<name>` has topic name `<name>`. */
  lemma TopicNameOfArn(prefix: string, name: string)
    requires ':' !in name
    ensures TopicName(prefix + ":" + name) == name
  {
    AfterLastOfSuffix(prefix, ':', name);
  }

  /** The items a listing delivered, in page order; in new.py a ClientError keeps
      what the earlier pages returned. */
  function Gathered<T>(l: Listing<T>): (r: seq<T>)
    ensures l.pages == [] ==> r == []
  {
    OffsetPaging.Flatten(l.pages)
  }

  /** Every item of every delivered page is gathered, and nothing else. */
  lemma {:induction false} GatheredMembers<T>(l: Listing<T>, x: T)
    ensures x in Gathered(l) <==> exists i :: 0 <= i < |l.pages| && x in l.pages[i]
    decreases |l.pages|
  {
    if |l.pages| > 0 {
      var rest := Listing(l.pages[1..], l.failed);
      GatheredMembers(rest, x);
      assert Gathered(l) == l.pages[0] + Gathered(rest);
      if exists i :: 0 < i < |l.pages| && x in l.pages[i] {
        var i :| 0 < i < |l.pages| && x in l.pages[i];
        assert rest.pages[i - 1] == l.pages[i];
      }
    }
  }

  /** The key a subscription contributes: present when its endpoint contains
      "pagerduty" and the key pattern matches it (`if "pagerduty" not in endpoint:
      continue`, then `if not key: continue`). */
  function HitKey(sub: Subscription): (k: Option<string>)
    ensures k.Some? <==> Contains(sub.endpoint, PagerDutyMarker) && KeyResolver.ExtractKey(sub.endpoint).Some?
    ensures k.Some? ==> k == KeyResolver.ExtractKey(sub.endpoint)
    ensures k.Some? ==> |k.value| > 0 && '/' !in k.value
  {
    if Contains(sub.endpoint, PagerDutyMarker) then KeyResolver.ExtractKey(sub.endpoint) else None
  }

  /** A subscription that sets the found flag. */
  predicate IsPagerDutyHit(sub: Subscription) {
    HitKey(sub).Some?
  }

  /** The number of hits among `subs`. */
  function CountHits(subs: seq<Subscription>): (n: nat)
    ensures n <= |subs|
    ensures n == 0 <==> forall i :: 0 <= i < |subs| ==> !IsPagerDutyHit(subs[i])
    decreases |subs|
  {
    if |subs| == 0 then 0
    else (if IsPagerDutyHit(subs[0]) then 1 else 0) + CountHits(subs[1..])
  }

  /** The keys of the subscription loop that set the found flag, one per hit, in
      subscription order. */
  function PagerDutyKeys(subs: seq<Subscription>): (keys: seq<string>)
    ensures |keys| <= |subs|
    ensures forall i :: 0 <= i < |keys| ==> |keys[i]| > 0 && '/' !in keys[i]
  {
    FilterMap(subs, HitKey)
  }

  /** One key per hit: the found flag is set exactly when some subscription hits. */
  lemma {:induction false} PagerDutyKeysCount(subs: seq<Subscription>)
    ensures |PagerDutyKeys(subs)| == CountHits(subs)
    decreases |subs|
  {
    if |subs| > 0 {
      PagerDutyKeysCount(subs[1..]);
    }
  }

  /** The keys of a concatenation are the keys of each part, in order: the rows of
      a topic follow subscription order. */
  lemma PagerDutyKeysAppend(a: seq<Subscription>, b: seq<Subscription>)
    ensures PagerDutyKeys(a + b) == PagerDutyKeys(a) + PagerDutyKeys(b)
  {
    FilterMapAppend(a, b, HitKey);
  }

  /** One subscription contributes its key if it is a hit, and nothing otherwise. */
  lemma PagerDutyKeysSingle(s: Subscription)
    ensures IsPagerDutyHit(s) ==> PagerDutyKeys([s]) == [HitKey(s).value]
    ensures !IsPagerDutyHit(s) ==> PagerDutyKeys([s]) == []
  {
    assert [s][1..] == [];
  }

  /** An endpoint containing "pagerduty" but no parseable key is no hit, so it
      leaves the found flag unset. */
  lemma MarkerWithoutKeyIsNoHit(s: Subscription)
    requires Contains(s.endpoint, PagerDutyMarker)
    requires forall i :: !KeyResolver.MatchesAt(s.endpoint, i)
    ensures PagerDutyKeys([s]) == []
  {
    PagerDutyKeysSingle(s);
  }
}

=== FILE: key_index.dfy ===
/** The PagerDuty side of the join: the teams map and the integration-key index,
    folded with last-write-wins over the items the pagination loop collected. */
module KeyIndex {

  /** A team object of the `/teams` endpoint: `t["id"]`, `t["name"]`. */
  datatype Team = Team(id: string, name: string)

  /** A service object of the `/services` endpoint: its id and name, the ids of its
      `teams` in order, and the `integration_key` of each of its `integrations`
      (a missing or null key is the empty string: falsy either way). */
  datatype Service = Service(id: string, name: string, teamIds: seq<string>, integrationKeys: seq<string>)

  /** No team after position `i` has the same id. */
  ghost predicate LastTeamWithId(teams: seq<Team>, i: int)
    requires 0 <= i < |teams|
  {
    forall j :: i < j < |teams| ==> teams[j].id != teams[i].id
  }

  /** `teams[t["id"]] = t["name"]` for every team of every page, in order. */
  function TeamsMap(teams: seq<Team>): (m: map<string, string>)
    ensures |m| <= |teams|
    decreases |teams|
  {
    if |teams| == 0 then map[]
    else
      var last := teams[|teams| - 1];
      TeamsMap(teams[..|teams| - 1])[last.id := last.name]
  }

  /** Every team id seen is a key of the map, and nothing else is. */
  lemma {:induction false} TeamsMapDomain(teams: seq<Team>, id: string)
    ensures id in TeamsMap(teams) <==> exists i :: 0 <= i < |teams| && teams[i].id == id
    decreases |teams|
  {
    if |teams| > 0 {
      var prefix := teams[..|teams| - 1];
      TeamsMapDomain(prefix, id);
      if id in TeamsMap(prefix) {
        var i :| 0 <= i < |prefix| && prefix[i].id == id;
        assert teams[i] == prefix[i];
      }
      if id != teams[|teams| - 1].id && exists i :: 0 <= i < |teams| && teams[i].id == id {
        var i :| 0 <= i < |teams| && teams[i].id == id;
        assert prefix[i] == teams[i];
      }
    }
  }

  /** Each id maps to the name on its last occurrence (last write wins). */
  lemma {:induction false} TeamsMapLastWins(teams: seq<Team>, i: nat)
    requires i < |teams| && LastTeamWithId(teams, i)
    ensures teams[i].id in TeamsMap(teams) && TeamsMap(teams)[teams[i].id] == teams[i].name
    decreases |teams|
  {
    if i < |teams| - 1 {
      var prefix := teams[..|teams| - 1];
      assert prefix[i] == teams[i];
      assert LastTeamWithId(prefix, i) by {
        forall j | i < j < |prefix| ensures prefix[j].id != prefix[i].id {
          assert prefix[j] == teams[j];
        }
      }
      TeamsMapLastWins(prefix, i);
    }
  }

  /** Both halves of the team-map contract, for every id at once. */
  lemma TeamsMapSpec(teams: seq<Team>)
    ensures forall id :: id in TeamsMap(teams) ==> exists i :: 0 <= i < |teams| && teams[i].id == id
    ensures forall i :: 0 <= i < |teams| && LastTeamWithId(teams, i) ==>
              teams[i].id in TeamsMap(teams) && TeamsMap(teams)[teams[i].id] == teams[i].name
  {
    forall id | id in TeamsMap(teams) ensures exists i :: 0 <= i < |teams| && teams[i].id == id {
      TeamsMapDomain(teams, id);
    }
    forall i | 0 <= i < |teams| && LastTeamWithId(teams, i)
      ensures teams[i].id in TeamsMap(teams) && TeamsMap(teams)[teams[i].id] == teams[i].name
    {
      TeamsMapLastWins(teams, i);
    }
  }

  /** Service `s` lists `key` as a truthy integration key (`if key:`). */
  predicate Lists(s: Service, key: string) {
    key != "" && key in s.integrationKeys
  }

  /** No service after position `i` lists `key`. */
  ghost predicate LastListing(services: seq<Service>, i: int, key: string)
    requires 0 <= i < |services|
  {
    forall j :: i < j < |services| ==> !Lists(services[j], key)
  }

  /** `lookup[key] = info(s)` for every truthy key of every service, in order.
      new.py stores (id, name); all.py stores id, name and the resolved team. */
  function IndexBy<V>(services: seq<Service>, info: Service -> V): (m: map<string, V>)
    ensures forall key :: key in m ==> key != ""
    decreases |services|
  {
    if |services| == 0 then map[]
    else
      var last := services[|services| - 1];
      IndexBy(services[..|services| - 1], info) + map key | key in last.integrationKeys && key != "" :: info(last)
  }

  /** The keys of the index are exactly the truthy keys some service lists. */
  lemma {:induction false} IndexDomain<V>(services: seq<Service>, info: Service -> V, key: string)
    ensures key in IndexBy(services, info) <==> exists i :: 0 <= i < |services| && Lists(services[i], key)
    decreases |services|
  {
    if |services| > 0 {
      var prefix := services[..|services| - 1];
      IndexDomain(prefix, info, key);
      if key in IndexBy(prefix, info) {
        var i :| 0 <= i < |prefix| && Lists(prefix[i], key);
        assert services[i] == prefix[i];
      }
      if !Lists(services[|services| - 1], key) && exists i :: 0 <= i < |services| && Lists(services[i], key) {
        var i :| 0 <= i < |services| && Lists(services[i], key);
        assert prefix[i] == services[i];
      }
    }
  }

  /** A key maps to the record of the last service listing it (last write wins). */
  lemma {:induction false} IndexLastWins<V>(services: seq<Service>, info: Service -> V, i: nat, key: string)
    requires i < |services| && Lists(services[i], key) && LastListing(services, i, key)
    ensures key in IndexBy(services, info) && IndexBy(services, info)[key] == info(services[i])
    decreases |services|
  {
    if i < |services| - 1 {
      var prefix := services[..|services| - 1];
      assert prefix[i] == services[i];
      assert LastListing(prefix, i, key) by {
        forall j | i < j < |prefix| ensures !Lists(prefix[j], key) {
          assert prefix[j] == services[j];
        }
      }
      IndexLastWins(prefix, info, i, key);
    }
  }


  /** Both halves of the index contract, for every key at once. */
  lemma IndexSpec<V>(services: seq<Service>, info: Service -> V)
    ensures forall key :: key in IndexBy(services, info) <==> exists i :: 0 <= i < |services| && Lists(services[i], key)
    ensures forall i, key :: 0 <= i < |services| && Lists(services[i], key) && LastListing(services, i, key) ==>
              key in IndexBy(services, info) && IndexBy(services, info)[key] == info(services[i])
  {
    forall key ensures key in IndexBy(services, info) <==> exists i :: 0 <= i < |services| && Lists(services[i], key) {
      IndexDomain(services, info, key);
    }
    forall i, key | 0 <= i < |services| && Lists(services[i], key) && LastListing(services, i, key)
      ensures key in IndexBy(services, info) && IndexBy(services, info)[key] == info(services[i])
    {
      IndexLastWins(services, info, i, key);
    }
  }
}

=== FILE: key_resolver.dfy ===
/** Integration-key extraction: `re.search(r"/integration/([^/]+)/?", url)` and its
    first group, as used by new.py's `extract_integration_key_from_url` and all.py's
    `extract_key_from_pd`. */
module KeyResolver {
  import opened Wrappers
  import opened Strings

  /** The literal path segment the pattern starts with. */
  const Marker: string := "/integration/"

  /** The pattern matches at `i`: the marker sits at `i` and is followed by at least
      one non-slash character (`[^/]+` needs one; the trailing `/?` always matches). */
  predicate MatchesAt(url: string, i: int) {
    OccursAt(Marker, url, i) && i + |Marker| < |url| && url[i + |Marker|] != '/'
  }

  /** `k` is the group captured by the match at `i`: the maximal slash-free run
      starting right after the marker, since `[^/]+` is greedy. */
  ghost predicate CapturedAt(url: string, i: int, k: string) {
    && MatchesAt(url, i)
    && (forall j :: 0 <= j < i ==> !MatchesAt(url, j))
    && |k| > 0 && '/' !in k
    && OccursAt(k, url, i + |Marker|)
    && (i + |Marker| + |k| == |url| || url[i + |Marker| + |k|] == '/')
  }

  /** The maximal run of non-slash characters of `url` starting at `j`. */
  function SlashFreeRun(url: string, j: nat): (r: string)
    requires j <= |url|
    ensures '/' !in r
    ensures OccursAt(r, url, j)
    ensures j + |r| == |url| || url[j + |r|] == '/'
    decreases |url| - j
  {
    if j == |url| || url[j] == '/' then ""
    else [url[j]] + SlashFreeRun(url, j + 1)
  }

  /** The leftmost position at or after `i` where the pattern matches. */
  function FindMatch(url: string, i: nat): (r: Option<nat>)
    ensures r.Some? ==> i <= r.value && MatchesAt(url, r.value)
    ensures r.Some? ==> forall j :: i <= j < r.value ==> !MatchesAt(url, j)
    ensures r.None? ==> forall j :: i <= j ==> !MatchesAt(url, j)
    decreases |url| - i
  {
    if i + |Marker| >= |url| then None
    else if MatchesAt(url, i) then Some(i)
    else FindMatch(url, i + 1)
  }

  /** The integration key of a notification endpoint, or None (`if not url: return
      None`, then the search). */
  function ExtractKey(url: string): (r: Option<string>)
    ensures r.None? <==> forall i :: !MatchesAt(url, i)
    ensures r.Some? ==> exists i :: CapturedAt(url, i, r.value)
    ensures r.Some? ==> |r.value| > 0 && '/' !in r.value
  {
    if |url| == 0 then None
    else
      match FindMatch(url, 0)
      case None => None
      case Some(i) =>
        var k := SlashFreeRun(url, i + |Marker|);
        assert url[i + |Marker|] == k[0];
        assert CapturedAt(url, i, k);
        Some(k)
  }

  /** The capture is determined by the text: no two positions or keys satisfy it. */
  lemma CaptureUnique(url: string, i: int, k: string, i': int, k': string)
    requires CapturedAt(url, i, k) && CapturedAt(url, i', k')
    ensures i == i' && k == k'
  {
  }

  /** ExtractKey returns exactly the captured group whenever the pattern matches. */
  lemma ExtractKeyIsCapture(url: string, i: int, k: string)
    requires CapturedAt(url, i, k)
    ensures ExtractKey(url) == Some(k)
  {
    var r := ExtractKey(url);
    assert r.Some?;
    var i' :| CapturedAt(url, i', r.value);
    CaptureUnique(url, i, k, i', r.value);
  }

  /** A key followed by more path (`.../integration/<key>/enqueue`) is cut at the
      slash, and one at the end of the URL is taken whole. */
  lemma KeyBeforeSlash(prefix: string, key: string, rest: string)
    requires forall j :: 0 <= j < |prefix| ==> !MatchesAt(prefix + Marker + key + rest, j)
    requires |key| > 0 && '/' !in key
    requires rest == [] || rest[0] == '/'
    ensures ExtractKey(prefix + Marker + key + rest) == Some(key)
  {
    var url := prefix + Marker + key + rest;
    var b := |prefix| + |Marker|;
    assert url[|prefix|..b] == Marker;
    assert url[b..b + |key|] == key;
    assert url[b] == key[0];
    assert key[0] in key;
    ExtractKeyIsCapture(url, |prefix|, key);
  }

  /** A URL lacking some character of the marker has no match. */
  lemma NoMatchWithout(url: string, m: nat)
    requires m < |Marker| && Marker[m] !in url
    ensures forall j :: !MatchesAt(url, j)
  {
    forall j ensures !OccursAt(Marker, url, j) {
      if 0 <= j && j + |Marker| <= |url| {
        assert url[j..j + |Marker|][m] in url;
      }
    }
  }

  /** No match starts inside a slash-free stretch `x` of a URL. */
  lemma NoMatchInSlashFree(p: string, x: string, rest: string)
    requires '/' !in x
    ensures forall j :: |p| <= j < |p| + |x| ==> !MatchesAt(p + x + rest, j)
  {
    var url := p + x + rest;
    forall j | |p| <= j < |p| + |x| ensures !MatchesAt(url, j) {
      if j + |Marker| <= |url| {
        assert url[j..j + |Marker|][0] == x[j - |p|];
      }
    }
  }

  /** No match starts inside `scheme://host` when neither part has a slash and the
      host does not start with the marker's second character. */
  lemma NoMatchInAuthority(scheme: string, host: string, rest: string)
    requires '/' !in scheme && '/' !in host
    requires |host| > 0 && host[0] != Marker[1]
    ensures forall j :: 0 <= j < |scheme| + 2 + |host| ==> !MatchesAt(scheme + "//" + host + rest, j)
  {
    var url := scheme + "//" + host + rest;
    NoMatchInSlashFree([], scheme, "//" + host + rest);
    assert url == [] + scheme + ("//" + host + rest);
    NoMatchInSlashFree(scheme + "//", host, rest);
    forall j | |scheme| <= j < |scheme| + 2 ensures !MatchesAt(url, j) {
      if j + |Marker| <= |url| {
        assert url[j..j + |Marker|][1] == url[j + 1];
      }
    }
  }

  /** Scheme and host of the PagerDuty events endpoint. */
  const EventsHost: string := "https://events.pagerduty.com"

  /** No match starts inside the scheme and host of the documented endpoint. */
  lemma EventsHostHasNoMatch(rest: string)
    ensures forall j :: 0 <= j < |EventsHost| ==> !MatchesAt(EventsHost + rest, j)
  {
    var scheme, host := "https:", "events.pagerduty.com";
    assert EventsHost == scheme + "//" + host;
    assert EventsHost + rest == scheme + "//" + host + rest;
    NoMatchInAuthority(scheme, host, rest);
  }

  /** The endpoint shape documented in new.py yields its key. */
  lemma EventsEndpointExample()
    ensures ExtractKey("https://events.pagerduty.com/integration/ABC123/enqueue") == Some("ABC123")
  {
    var url := "https://events.pagerduty.com/integration/ABC123/enqueue";
    assert url == EventsHost + Marker + "ABC123" + "/enqueue";
    EventsHostHasNoMatch(Marker + "ABC123" + "/enqueue");
    assert EventsHost + (Marker + "ABC123" + "/enqueue") == EventsHost + Marker + "ABC123" + "/enqueue";
    KeyBeforeSlash(EventsHost, "ABC123", "/enqueue");
  }

  /** An endpoint without the segment yields nothing: it has no 'g', which the
      marker needs. */
  lemma OtherPathExample()
    ensures ExtractKey("https://example.com/other/path") == None
  {
    NoMatchWithout("https://example.com/other/path", 5);
  }
}

=== FILE: offset_paging.dfy ===
/** The PagerDuty offset-pagination loop shared by new.py's
    `fetch_pagerduty_services_for_team` and all.py's `fetch_all_pd_teams` and
    `fetch_all_pd_services_with_integrations`. The remote side is a finite script:
    the k-th response answers the k-th request the loop makes. */
module OffsetPaging {

  /** `limit = 100` in every loop; the offset advances by it. */
  const PageLimit: nat := 100

  /** A status `raise_for_status` raises on (4xx or 5xx) that the loop does not
      retry (429 is retried before `raise_for_status` is reached). */
  type ErrorStatus = s: int | 400 <= s < 600 && s != 429 witness 400

  /** One HTTP answer: status 429, another status that `raise_for_status` turns
      into an exception, or a decoded page with its `more` flag (absent = false). */
  datatype Response<T> = RateLimited | HttpError(status: ErrorStatus) | Page(items: seq<T>, more: bool)

  /** How the loop ended: `break` on a last page, an exception, or the script ran
      out before either (the real loop would keep asking). */
  datatype Outcome = Complete | Fatal(status: ErrorStatus) | Unfinished

  /** What the loop did: the offset of every request it made (one per response
      consumed), the items of every successful page, and how it ended. */
  datatype Fetch<T> = Fetch(requested: seq<nat>, pages: seq<seq<T>>, outcome: Outcome)

  /** A response after which the loop makes no further request. */
  predicate Stops<T>(r: Response<T>): (b: bool)
    ensures !b <==> r.RateLimited? || (r.Page? && r.more)
  {
    r.HttpError? || (r.Page? && !r.more)
  }

  /** How far the offset moves after a response the loop continues from. */
  function Advance<T>(r: Response<T>): nat {
    if r.Page? then PageLimit else 0
  }

  /** The items of the successful pages among `rs`, in order. */
  function PagesOf<T>(rs: seq<Response<T>>): (pages: seq<seq<T>>)
    decreases |rs|
  {
    if |rs| == 0 then []
    else (if rs[0].Page? then [rs[0].items] else []) + PagesOf(rs[1..])
  }

  /** All items of `pages`, in order. */
  function Flatten<T>(pages: seq<seq<T>>): (items: seq<T>)
    decreases |pages|
  {
    if |pages| == 0 then [] else pages[0] + Flatten(pages[1..])
  }

  /** The `while True` loop, started at `offset`, fed by `script`. */
  function FetchFrom<T>(script: seq<Response<T>>, offset: nat): (f: Fetch<T>)
    ensures |f.requested| <= |script|
    ensures |script| > 0 ==> |f.requested| > 0 && f.requested[0] == offset
    ensures forall k :: 0 <= k < |f.requested| - 1 ==>
              !Stops(script[k]) && f.requested[k + 1] == f.requested[k] + Advance(script[k])
    ensures f.outcome == Unfinished <==> |f.requested| == |script| && forall k :: 0 <= k < |script| ==> !Stops(script[k])
    ensures f.outcome == Complete <==> |f.requested| > 0 && script[|f.requested| - 1].Page? && !script[|f.requested| - 1].more
    ensures f.outcome.Fatal? <==> |f.requested| > 0 && script[|f.requested| - 1].HttpError?
    ensures f.outcome.Fatal? ==> script[|f.requested| - 1] == HttpError(f.outcome.status)
    decreases |script|
  {
    if |script| == 0 then Fetch([], [], Unfinished)
    else if Stops(script[0]) then
      Fetch([offset], PagesOf([script[0]]), if script[0].HttpError? then Fatal(script[0].status) else Complete)
    else
      var rest := FetchFrom(script[1..], offset + Advance(script[0]));
      Fetch([offset] + rest.requested, PagesOf([script[0]]) + rest.pages, rest.outcome)
  }

  /** The items of the successful pages up to and including the first response
      that stops the loop. */
  function PagesUntilStop<T>(rs: seq<Response<T>>): (pages: seq<seq<T>>)
    decreases |rs|
  {
    if |rs| == 0 then []
    else if Stops(rs[0]) then PagesOf([rs[0]])
    else PagesOf([rs[0]]) + PagesUntilStop(rs[1..])
  }

  /** The items kept are exactly those of the successful pages the loop saw, in
      order, whatever the offsets: nothing dropped or repeated by a retry. */
  lemma {:induction false} FetchedPages<T>(script: seq<Response<T>>, offset: nat)
    ensures FetchFrom(script, offset).pages == PagesUntilStop(script)
    decreases |script|
  {
    if |script| > 0 && !Stops(script[0]) {
      FetchedPages(script[1..], offset + Advance(script[0]));
    }
  }

  /** A 429 never moves the offset, and every successful page was requested at
      the offset right after the pages before it: the k-th request asks for
      `offset + 100 * (pages so far)`. */
  lemma {:induction false} RequestedOffsets<T>(script: seq<Response<T>>, offset: nat, k: nat)
    requires k < |FetchFrom(script, offset).requested|
    ensures FetchFrom(script, offset).requested[k] == offset + PageLimit * |PagesOf(script[..k])|
  {
    var f := FetchFrom(script, offset);
    if k == 0 {
      assert script[..0] == [];
    } else {
      RequestedOffsets(script, offset, k - 1);
      PagesOfSnoc(script[..k - 1], script[k - 1]);
      assert script[..k - 1] + [script[k - 1]] == script[..k];
    }
  }

  lemma {:induction false} PagesOfSnoc<T>(rs: seq<Response<T>>, r: Response<T>)
    ensures |PagesOf(rs + [r])| == |PagesOf(rs)| + (if r.Page? then 1 else 0)
    decreases |rs|
  {
    if |rs| == 0 {
      assert rs + [r] == [r];
    } else {
      PagesOfSnoc(rs[1..], r);
      assert (rs + [r])[1..] == rs[1..] + [r];
    }
  }

  /** No offset is fetched twice: a later successful page was requested at a
      strictly larger offset than an earlier one. */
  lemma PageOffsetsIncrease<T>(script: seq<Response<T>>, offset: nat, k: nat, k': nat)
    requires k < k' < |FetchFrom(script, offset).requested|
    requires script[k].Page?
    ensures FetchFrom(script, offset).requested[k] < FetchFrom(script, offset).requested[k']
  {
    RequestedOffsets(script, offset, k);
    RequestedOffsets(script, offset, k');
    PagesOfSnoc(script[..k], script[k]);
    assert script[..k] + [script[k]] == script[..k'][..k + 1];
    PagesOfPrefixMonotone(script[..k'], k + 1);
  }

  lemma {:induction false} PagesOfPrefixMonotone<T>(rs: seq<Response<T>>, n: nat)
    requires n <= |rs|
    ensures |PagesOf(rs[..n])| <= |PagesOf(rs)|
    decreases |rs|
  {
    if n > 0 {
      PagesOfPrefixMonotone(rs[1..], n - 1);
      assert rs[..n][1..] == rs[1..][..n - 1];
    }
  }

  /** "429 => same offset": the request after a rate-limited one repeats it. */
  lemma RateLimitRetriesSameOffset<T>(script: seq<Response<T>>, offset: nat, k: nat)
    requires k + 1 < |FetchFrom(script, offset).requested| && script[k].RateLimited?
    ensures FetchFrom(script, offset).requested[k + 1] == FetchFrom(script, offset).requested[k]
  {
  }

  /** The result a fetch function hands back: its fold input when the loop hit a
      last page, the status of the exception `raise_for_status` threw, or
      ScriptEnded when the script ran out first. */
  datatype Loaded<V> = Loaded(value: V) | Aborted(status: ErrorStatus) | ScriptEnded

  /** All items the loop accumulated, if it finished. */
  function Collect<T>(script: seq<Response<T>>): (r: Loaded<seq<T>>)
    ensures r.Loaded? <==> exists k :: 0 <= k < |script| && script[k].Page? && !script[k].more &&
                                      forall j :: 0 <= j < k ==> !Stops(script[j])
    ensures r.Loaded? ==> r.value == Flatten(PagesUntilStop(script))
    ensures r.Aborted? <==> exists k :: 0 <= k < |script| && script[k].HttpError? &&
                                       forall j :: 0 <= j < k ==> !Stops(script[j])
    ensures r.Aborted? ==> exists k :: 0 <= k < |script| && script[k] == HttpError(r.status) &&
                                     forall j :: 0 <= j < k ==> !Stops(script[j])
    ensures r.ScriptEnded? <==> forall k :: 0 <= k < |script| ==> !Stops(script[k])
    ensures r.Loaded? <==> StopOutcome(script) == Complete
    ensures r.Aborted? <==> StopOutcome(script).Fatal?
    ensures r.Aborted? ==> StopOutcome(script) == Fatal(r.status)
  {
    var f := FetchFrom(script, 0);
    FetchedPages(script, 0);
    FetchedOutcome(script, 0);
    StopOutcomeFirstStop(script);
    match f.outcome
    case Complete =>
      assert forall j :: 0 <= j < |f.requested| - 1 ==> !Stops(script[j]);
      Loaded(Flatten(f.pages))
    case Fatal(status) => Aborted(status)
    case Unfinished => ScriptEnded
  }

  /** How the loop ends, read off the script alone: at the first response that
      stops it, if any. */
  function StopOutcome<T>(rs: seq<Response<T>>): (o: Outcome)
    decreases |rs|
  {
    if |rs| == 0 then Unfinished
    else if rs[0].HttpError? then Fatal(rs[0].status)
    else if Stops(rs[0]) then Complete
    else StopOutcome(rs[1..])
  }

  /** StopOutcome reads the first response that stops the loop: an HTTP error
      there gives its status, and no stopping response leaves the loop unfinished. */
  lemma {:induction false} StopOutcomeFirstStop<T>(rs: seq<Response<T>>)
    ensures StopOutcome(rs).Fatal? <==> exists k :: 0 <= k < |rs| && rs[k].HttpError? &&
                                                  forall j :: 0 <= j < k ==> !Stops(rs[j])
    ensures StopOutcome(rs).Fatal? ==> exists k :: 0 <= k < |rs| && rs[k] == HttpError(StopOutcome(rs).status) &&
                                                 forall j :: 0 <= j < k ==> !Stops(rs[j])
    ensures StopOutcome(rs) == Unfinished <==> forall k :: 0 <= k < |rs| ==> !Stops(rs[k])
    decreases |rs|
  {
    if |rs| > 0 {
      if rs[0].HttpError? {
        assert rs[0] == HttpError(StopOutcome(rs).status);
      } else if !Stops(rs[0]) {
        var tail := rs[1..];
        StopOutcomeFirstStop(tail);
        assert forall k :: 0 < k < |rs| ==> rs[k] == tail[k - 1];
        if StopOutcome(rs).Fatal? {
          var k :| 0 <= k < |tail| && tail[k] == HttpError(StopOutcome(rs).status) &&
                   forall j :: 0 <= j < k ==> !Stops(tail[j]);
          assert forall j :: 0 <= j < k + 1 ==> !Stops(rs[j]) by {
            forall j | 0 < j < k + 1 ensures !Stops(rs[j]) {
              assert rs[j] == tail[j - 1];
            }
          }
        }
        if exists k :: 0 <= k < |rs| && rs[k].HttpError? && forall j :: 0 <= j < k ==> !Stops(rs[j]) {
          var k :| 0 <= k < |rs| && rs[k].HttpError? && forall j :: 0 <= j < k ==> !Stops(rs[j]);
          assert tail[k - 1].HttpError? && forall j :: 0 <= j < k - 1 ==> !Stops(tail[j]);
        }
        if forall k :: 0 <= k < |tail| ==> !Stops(tail[k]) {
          assert forall k :: 0 <= k < |rs| ==> !Stops(rs[k]);
        }
      }
    }
  }

  lemma {:induction false} FetchedOutcome<T>(script: seq<Response<T>>, offset: nat)
    ensures FetchFrom(script, offset).outcome == StopOutcome(script)
    decreases |script|
  {
    if |script| > 0 && !Stops(script[0]) {
      FetchedOutcome(script[1..], offset + Advance(script[0]));
    }
  }

  /** A 429 inserted anywhere in the script changes neither how the loop ends nor
      the items it keeps: the retry asks for the same page again. */
  lemma {:induction false} RateLimitTransparent<T>(script: seq<Response<T>>, k: nat)
    requires k <= |script|
    ensures StopOutcome(script[..k] + [RateLimited] + script[k..]) == StopOutcome(script)
    ensures PagesUntilStop(script[..k] + [RateLimited] + script[k..]) == PagesUntilStop(script)
    decreases k
  {
    var ins := script[..k] + [RateLimited] + script[k..];
    if k == 0 {
      assert ins == [RateLimited] + script;
      assert ins[1..] == script;
      assert ins[..1][1..] == [];
      assert PagesOf(ins[..1]) == [];
      assert ins[..1] == [ins[0]];
    } else {
      assert ins[0] == script[0];
      if !Stops(script[0]) {
        RateLimitTransparent(script[1..], k - 1);
        assert ins[1..] == script[1..][..k - 1] + [RateLimited] + script[1..][k - 1..];
      }
    }
  }

  /** So the collected items do not depend on how often the platform throttled. */
  lemma CollectIgnoresRateLimit<T>(script: seq<Response<T>>, k: nat)
    requires k <= |script|
    ensures Collect(script[..k] + [RateLimited] + script[k..]) == Collect(script)
  {
    var ins := script[..k] + [RateLimited] + script[k..];
    RateLimitTransparent(script, k);
    FetchedOutcome(script, 0);
    FetchedOutcome(ins, 0);
    FetchedPages(script, 0);
    FetchedPages(ins, 0);
  }

  /** A single last page yields exactly its items. */
  lemma CollectSinglePage<T>(items: seq<T>)
    ensures Collect([Page(items, false)]) == Loaded(items)
  {
    var script := [Page(items, false)];
    assert [script[0]][1..] == [];
    assert PagesOf([script[0]]) == [items];
    assert FetchFrom(script, 0) == Fetch([0], [items], Complete);
    assert [items][1..] == [];
    assert Flatten([items]) == items;
    FetchedPages(script, 0);
    assert PagesUntilStop(script) == [items];
  }
}

=== FILE: seqs.dfy ===
/** Two sequence combinators the scripts' nested loops reduce to: keeping the
    values a partial map yields, and concatenating per-element results. */
module Seqs {
  import opened Wrappers

  /** The values `f` yields over `xs`, in order; elements it maps to None are
      skipped. */
  function FilterMap<A, B>(xs: seq<A>, f: A -> Option<B>): (r: seq<B>)
    ensures |r| <= |xs|
    ensures forall i :: 0 <= i < |r| ==> exists j :: 0 <= j < |xs| && f(xs[j]) == Some(r[i])
    decreases |xs|
  {
    if |xs| == 0 then []
    else
      var rest := FilterMap(xs[1..], f);
      assert forall j :: 1 <= j < |xs| ==> xs[1..][j - 1] == xs[j];
      match f(xs[0])
      case Some(y) => [y] + rest
      case None => rest
  }

  lemma {:induction false} FilterMapAppend<A, B>(a: seq<A>, b: seq<A>, f: A -> Option<B>)
    ensures FilterMap(a + b, f) == FilterMap(a, f) + FilterMap(b, f)
    decreases |a|
  {
    if |a| == 0 {
      assert a + b == b;
    } else {
      FilterMapAppend(a[1..], b, f);
      assert (a + b)[1..] == a[1..] + b;
      assert (a + b)[0] == a[0];
    }
  }

  /** The results of `f` over `xs`, concatenated in order. */
  function FlatMap<A, B>(xs: seq<A>, f: A -> seq<B>): (r: seq<B>)
    ensures forall i :: 0 <= i < |r| ==> exists j :: 0 <= j < |xs| && r[i] in f(xs[j])
    decreases |xs|
  {
    if |xs| == 0 then []
    else
      var head := f(xs[0]);
      var rest := FlatMap(xs[1..], f);
      assert forall j :: 1 <= j < |xs| ==> xs[1..][j - 1] == xs[j];
      assert forall i :: 0 <= i < |head| ==> (head + rest)[i] in f(xs[0]);
      assert forall i :: |head| <= i < |head + rest| ==> (head + rest)[i] == rest[i - |head|];
      head + rest
  }

  lemma {:induction false} FlatMapAppend<A, B>(a: seq<A>, b: seq<A>, f: A -> seq<B>)
    ensures FlatMap(a + b, f) == FlatMap(a, f) + FlatMap(b, f)
    decreases |a|
  {
    if |a| == 0 {
      assert a + b == b;
    } else {
      FlatMapAppend(a[1..], b, f);
      assert (a + b)[1..] == a[1..] + b;
      assert (a + b)[0] == a[0];
    }
  }

  lemma FlatMapSingle<A, B>(x: A, f: A -> seq<B>)
    ensures FlatMap([x], f) == f(x)
  {
    assert [x][1..] == [];
    assert f(x) + [] == f(x);
  }
}

=== FILE: strings.dfy ===
/** String helpers the scripts use through Python's str methods: `startswith`,
    `in` (substring test), `rsplit(":", 1)[-1]` and `";".join`. */
module Strings {

  /** `t` occurs in `s` starting at index `i`. */
  predicate OccursAt(t: string, s: string, i: int) {
    0 <= i && i + |t| <= |s| && s[i..i + |t|] == t
  }

  /** Python's `s.startswith(p)`. */
  predicate StartsWith(s: string, p: string): (b: bool)
    ensures b <==> |p| <= |s| && s[..|p|] == p
  {
    p <= s
  }

  /** Searches for `t` in `s` at positions `i` and later. */
  function ContainsFrom(s: string, t: string, i: nat): (b: bool)
    requires i <= |s|
    ensures b <==> exists j :: i <= j && OccursAt(t, s, j)
    decreases |s| - i
  {
    if i + |t| > |s| then false
    else if s[i..i + |t|] == t then assert OccursAt(t, s, i); true
    else ContainsFrom(s, t, i + 1)
  }

  /** Python's `t in s` for strings: `t` is a substring of `s`. */
  function Contains(s: string, t: string): (b: bool)
    ensures b <==> exists j :: OccursAt(t, s, j)
  {
    ContainsFrom(s, t, 0)
  }

  /** The position of the last `c` before index `i`, or -1 when there is none. */
  function LastIndexBefore(s: string, c: char, i: nat): (r: int)
    requires i <= |s|
    ensures -1 <= r < i
    ensures r >= 0 ==> s[r] == c
    ensures forall j :: r < j < i ==> s[j] != c
    decreases i
  {
    if i == 0 then -1
    else if s[i - 1] == c then i - 1
    else LastIndexBefore(s, c, i - 1)
  }

  /** The text after the last occurrence of `c`, or all of `s` when `c` does not
      occur: Python's `s.rsplit(c, 1)[-1]`, and equally `s.split(c)[-1]`. */
  function AfterLast(s: string, c: char): (r: string)
    ensures c !in r
    ensures |r| <= |s| && r == s[|s| - |r|..]
    ensures |r| < |s| ==> s[|s| - |r| - 1] == c
  {
    var k := LastIndexBefore(s, c, |s|);
    var r := s[k + 1..];
    assert forall j :: 0 <= j < |r| ==> r[j] == s[k + 1 + j];
    r
  }

  /** With no separator in `s`, the last piece is `s` itself. */
  lemma AfterLastNoSeparator(s: string, c: char)
    requires c !in s
    ensures AfterLast(s, c) == s
  {
  }

  /** The last piece of `p + [c] + n`, where `n` is free of `c`, is `n`. */
  lemma {:induction false} AfterLastOfSuffix(p: string, c: char, n: string)
    requires c !in n
    ensures AfterLast(p + [c] + n, c) == n
    decreases |n|
  {
    var s := p + [c] + n;
    if |n| > 0 {
      var m := n[..|n| - 1];
      assert c !in m by {
        forall k | 0 <= k < |m| ensures m[k] != c {
          assert m[k] == n[k];
        }
      }
      AfterLastOfSuffix(p, c, m);
      assert s[..|s| - 1] == p + [c] + m;
      assert s[|s| - 1] == n[|n| - 1];
      assert m + [n[|n| - 1]] == n;
    }
  }

  /** Python's `sep.join(parts)`. */
  function Join(parts: seq<string>, sep: string): (r: string)
    ensures |parts| == 0 ==> r == ""
    ensures |parts| > 0 ==> parts[0] <= r
    ensures |parts| > 1 ==> parts[0] + sep <= r
    decreases |parts|
  {
    if |parts| == 0 then ""
    else if |parts| == 1 then parts[0]
    else parts[0] + sep + Join(parts[1..], sep)
  }

  /** Python's `s.split(c)` for a one-character separator: never empty. */
  function Split(s: string, c: char): (r: seq<string>)
    ensures |r| >= 1
    ensures forall i :: 0 <= i < |r| ==> c !in r[i]
    decreases |s|
  {
    if |s| == 0 then [""]
    else
      var rest := Split(s[1..], c);
      if s[0] == c then [""] + rest
      else [[s[0]] + rest[0]] + rest[1..]
  }

  lemma {:induction false} SplitNoSeparator(a: string, c: char)
    requires c !in a
    ensures Split(a, c) == [a]
    decreases |a|
  {
    if |a| > 0 {
      assert c !in a[1..] by {
        forall k | 0 <= k < |a[1..]| ensures a[1..][k] != c {
          assert a[1..][k] == a[k + 1];
        }
      }
      SplitNoSeparator(a[1..], c);
      assert [a[0]] + a[1..] == a;
    }
  }

  lemma {:induction false} SplitAtSeparator(a: string, c: char, b: string)
    requires c !in a
    ensures Split(a + [c] + b, c) == [a] + Split(b, c)
    decreases |a|
  {
    var s := a + [c] + b;
    if |a| == 0 {
      assert s[0] == c;
      assert s[1..] == b;
    } else {
      assert c !in a[1..] by {
        forall k | 0 <= k < |a[1..]| ensures a[1..][k] != c {
          assert a[1..][k] == a[k + 1];
        }
      }
      SplitAtSeparator(a[1..], c, b);
      assert s[1..] == a[1..] + [c] + b;
      assert s[0] == a[0] != c;
      assert [a[0]] + a[1..] == a;
    }
  }

  /** Joining separator-free pieces with `c` and splitting on `c` gives the pieces
      back, so the joined text keeps every piece, in order. */
  lemma {:induction false} SplitJoin(parts: seq<string>, c: char)
    requires |parts| >= 1
    requires forall i :: 0 <= i < |parts| ==> c !in parts[i]
    ensures Split(Join(parts, [c]), c) == parts
    decreases |parts|
  {
    if |parts| == 1 {
      SplitNoSeparator(parts[0], c);
    } else {
      SplitJoin(parts[1..], c);
      SplitAtSeparator(parts[0], c, Join(parts[1..], [c]));
      assert [parts[0]] + parts[1..] == parts;
    }
  }
}

=== FILE: team_report.dfy ===
/** new.py: the report for one team. PagerDuty services of the team are indexed
    by integration key as (service id, service name); every alarm of every region
    is joined with the PagerDuty subscriptions of its SNS topics. A ClientError
    while listing alarms or subscriptions keeps what was gathered before it. */
module TeamReport {
  import opened Wrappers
  import opened Strings
  import opened OffsetPaging
  import opened KeyIndex
  import opened CloudWatch
  import opened Seqs

  /** The lookup value: `(sid, sname)`. */
  datatype PdService = PdService(id: string, name: string)

  /** One spreadsheet row, columns in the order of the exported DataFrame. */
  datatype Row = Row(
    region: string,
    alarmName: string,
    status: string,
    topicArn: string,
    topicName: string,
    integrationKey: string,
    serviceName: string,
    serviceId: string)


  function Record(s: Service): (p: PdService) {
    PdService(s.id, s.name)
  }

  /** `fetch_pagerduty_services_for_team`: the offset-paginated services fetch
      folded into `lookup[key] = (sid, sname)`. */
  function ServiceLookup(script: seq<Response<Service>>): (r: Loaded<map<string, PdService>>)
    ensures r.Loaded? <==> Collect(script).Loaded?
    ensures r.Aborted? <==> Collect(script).Aborted?
    ensures r.Aborted? ==> r.status == Collect(script).status
    ensures r.Loaded? ==> var services := Flatten(PagesUntilStop(script));
              (forall key :: key in r.value <==> exists i :: 0 <= i < |services| && Lists(services[i], key)) &&
              (forall i, key :: 0 <= i < |services| && Lists(services[i], key) && LastListing(services, i, key) ==>
                 key in r.value && r.value[key] == PdService(services[i].id, services[i].name))
  {
    match Collect(script)
    case Loaded(services) =>
      IndexSpec(services, Record);
      Loaded(IndexBy(services, Record))
    case Aborted(status) => Aborted(status)
    case ScriptEnded => ScriptEnded
  }

  /** The service columns of a hit: its lookup entry, or NOT_FOUND for both. */
  function ServiceFor(key: string, lookup: map<string, PdService>): (svc: PdService)
    ensures key in lookup ==> svc == lookup[key]
    ensures key !in lookup ==> svc.id == NotFound && svc.name == NotFound
  {
    if key in lookup then lookup[key] else PdService(NotFound, NotFound)
  }

  /** The rows of one SNS topic: one per PagerDuty hit among its subscriptions, in
      subscription order, or a single row with empty key and service when none hits. */
  function TopicRows(region: string, name: string, status: string, arn: string,
                     subs: seq<Subscription>, lookup: map<string, PdService>): (rows: seq<Row>)
    ensures |rows| >= 1
    ensures forall i :: 0 <= i < |rows| ==>
              rows[i].region == region && rows[i].alarmName == name && rows[i].status == status &&
              rows[i].topicArn == arn && rows[i].topicName == TopicName(arn)
    ensures PagerDutyKeys(subs) == [] ==>
              |rows| == 1 && rows[0].integrationKey == "" && rows[0].serviceName == "" && rows[0].serviceId == ""
    ensures PagerDutyKeys(subs) != [] ==> |rows| == |PagerDutyKeys(subs)|
    ensures PagerDutyKeys(subs) != [] ==> forall i :: 0 <= i < |rows| ==>
              && rows[i].integrationKey == PagerDutyKeys(subs)[i]
              && (rows[i].integrationKey in lookup ==>
                    rows[i].serviceId == lookup[rows[i].integrationKey].id &&
                    rows[i].serviceName == lookup[rows[i].integrationKey].name)
              && (rows[i].integrationKey !in lookup ==> rows[i].serviceId == NotFound && rows[i].serviceName == NotFound)
  {
    var keys := PagerDutyKeys(subs);
    if |keys| == 0 then [Row(region, name, status, arn, TopicName(arn), "", "", "")]
    else
      seq(|keys|, i requires 0 <= i < |keys| =>
        var svc := ServiceFor(keys[i], lookup);
        Row(region, name, status, arn, TopicName(arn), keys[i], svc.name, svc.id))
  }

  /** The rows of an alarm's actions, in action order; only SNS actions produce
      rows, and each produces at least one. `listings(arn, region)` is what
      `list_subscriptions_by_topic` saw for the topic. */
  function ActionRows(region: string, name: string, status: string, actions: seq<Action>,
                      listings: (string, string) -> Listing<Subscription>,
                      lookup: map<string, PdService>): (rows: seq<Row>)
    ensures |rows| >= CountSns(actions)
    ensures rows == [] <==> CountSns(actions) == 0
    ensures forall i :: 0 <= i < |rows| ==>
              rows[i].region == region && rows[i].alarmName == name && rows[i].status == status &&
              StartsWith(rows[i].topicArn, SnsArnPrefix) && ArnAction(rows[i].topicArn) in actions
    decreases |actions|
  {
    if |actions| == 0 then []
    else
      var head :=
        if IsSnsTopic(actions[0]) then
          TopicRows(region, name, status, actions[0].arn, Gathered(listings(actions[0].arn, region)), lookup)
        else [];
      var rest := ActionRows(region, name, status, actions[1..], listings, lookup);
      assert forall a :: a in actions[1..] ==> a in actions;
      head + rest
  }

  /** The rows one action contributes: its topic's rows if it is an SNS topic,
      built from the subscriptions listed for it, and none otherwise. */
  function ActionTopicRows(region: string, name: string, status: string, act: Action,
                           listings: (string, string) -> Listing<Subscription>,
                           lookup: map<string, PdService>): (rows: seq<Row>)
    ensures !IsSnsTopic(act) ==> rows == []
    ensures IsSnsTopic(act) ==> forall i :: 0 <= i < |rows| ==>
              rows[i].topicArn == act.arn && rows[i].topicName == TopicName(act.arn) && rows[i].status == status
    ensures IsSnsTopic(act) ==>
              var keys := PagerDutyKeys(Gathered(listings(act.arn, region)));
              |rows| == (if keys == [] then 1 else |keys|)
  {
    if IsSnsTopic(act) then TopicRows(region, name, status, act.arn, Gathered(listings(act.arn, region)), lookup)
    else []
  }

  /** The rows of an alarm's actions are each action's topic rows, concatenated in
      action order. */
  lemma {:induction false} ActionRowsAreTopicRows(region: string, name: string, status: string, actions: seq<Action>,
                                                  listings: (string, string) -> Listing<Subscription>,
                                                  lookup: map<string, PdService>)
    ensures ActionRows(region, name, status, actions, listings, lookup) ==
            FlatMap(actions, (act: Action) => ActionTopicRows(region, name, status, act, listings, lookup))
    decreases |actions|
  {
    if |actions| > 0 {
      ActionRowsAreTopicRows(region, name, status, actions[1..], listings, lookup);
    }
  }

  /** The rows of one alarm. */
  function AlarmRows(region: string, alarm: Alarm,
                     listings: (string, string) -> Listing<Subscription>,
                     lookup: map<string, PdService>): (rows: seq<Row>)
    ensures SafeLenActions(alarm) == 0 ==> rows == [Row(region, AlarmName(alarm), NoAction, "", "", "", "", "")]
    ensures SafeLenActions(alarm) > 0 ==> forall i :: 0 <= i < |rows| ==>
              rows[i].status == (if alarm.actionsEnabled then Enabled else Disabled) && rows[i].topicArn != ""
    ensures rows == [] <==> SafeLenActions(alarm) > 0 && CountSns(ActionsOf(alarm)) == 0
    ensures forall i :: 0 <= i < |rows| ==> rows[i].region == region && rows[i].alarmName == AlarmName(alarm)
    ensures SafeLenActions(alarm) > 0 ==>
              rows == FlatMap(ActionsOf(alarm),
                              (act: Action) => ActionTopicRows(region, AlarmName(alarm), StatusOf(alarm), act, listings, lookup))
  {
    if SafeLenActions(alarm) == 0 then [Row(region, AlarmName(alarm), NoAction, "", "", "", "", "")]
    else
      ActionRowsAreTopicRows(region, AlarmName(alarm), StatusOf(alarm), ActionsOf(alarm), listings, lookup);
      ActionRows(region, AlarmName(alarm), StatusOf(alarm), ActionsOf(alarm), listings, lookup)
  }

  /** The rows of the alarms of one region, in alarm order. */
  function RegionRows(region: string, alarms: seq<Alarm>,
                      listings: (string, string) -> Listing<Subscription>,
                      lookup: map<string, PdService>): (rows: seq<Row>)
    ensures forall i :: 0 <= i < |rows| ==> rows[i].region == region
  {
    FlatMap(alarms, (a: Alarm) => AlarmRows(region, a, listings, lookup))
  }

  /** The loop of `main`: regions in order, each with the alarms
      `describe_alarms_paginated` yielded for it. */
  function Report(regions: seq<string>, alarmListings: string -> Listing<Alarm>,
                  listings: (string, string) -> Listing<Subscription>,
                  lookup: map<string, PdService>): (rows: seq<Row>)
    ensures forall i :: 0 <= i < |rows| ==> rows[i].region in regions
  {
    FlatMap(regions, (region: string) => RegionRows(region, Gathered(alarmListings(region)), listings, lookup))
  }

  /** `main`: the lookup is built first; a PagerDuty error ends the run. */
  function Run(pdScript: seq<Response<Service>>, regions: seq<string>,
               alarmListings: string -> Listing<Alarm>,
               listings: (string, string) -> Listing<Subscription>): (r: Loaded<seq<Row>>)
    ensures r.Loaded? <==> ServiceLookup(pdScript).Loaded?
    ensures r.Aborted? <==> ServiceLookup(pdScript).Aborted?
    ensures r.Aborted? ==> r.status == ServiceLookup(pdScript).status
    ensures r.Loaded? ==> r.value == Report(regions, alarmListings, listings, ServiceLookup(pdScript).value)
  {
    match ServiceLookup(pdScript)
    case Loaded(lookup) => Loaded(Report(regions, alarmListings, listings, lookup))
    case Aborted(status) => Aborted(status)
    case ScriptEnded => ScriptEnded
  }

  /** The first HTTP error of the PagerDuty paging, before any last page, ends the
      run with its status, and no region is scanned. */
  lemma RunAbortsOnHttpError(pdScript: seq<Response<Service>>, regions: seq<string>,
                             alarmListings: string -> Listing<Alarm>,
                             listings: (string, string) -> Listing<Subscription>,
                             k: nat)
    requires k < |pdScript| && pdScript[k].HttpError?
    requires forall j :: 0 <= j < k ==> !Stops(pdScript[j])
    ensures Run(pdScript, regions, alarmListings, listings) == Aborted(pdScript[k].status)
  {
  }

  /** A topic gets one row per PagerDuty hit among its subscriptions, and one
      row when there is none: at least one row per SNS action. */
  lemma TopicRowsCount(region: string, name: string, status: string, arn: string,
                       subs: seq<Subscription>, lookup: map<string, PdService>)
    ensures |TopicRows(region, name, status, arn, subs, lookup)| == if CountHits(subs) == 0 then 1 else CountHits(subs)
    ensures CountHits(subs) == 0 ==> TopicRows(region, name, status, arn, subs, lookup)[0].integrationKey == ""
  {
    PagerDutyKeysCount(subs);
  }

  /** Rows come in alarm order: the rows of a sequence of alarms are the rows of
      its parts, concatenated. */
  lemma RegionRowsAppend(region: string, a: seq<Alarm>, b: seq<Alarm>,
                         listings: (string, string) -> Listing<Subscription>,
                         lookup: map<string, PdService>)
    ensures RegionRows(region, a + b, listings, lookup) ==
            RegionRows(region, a, listings, lookup) + RegionRows(region, b, listings, lookup)
  {
    FlatMapAppend(a, b, (x: Alarm) => AlarmRows(region, x, listings, lookup));
  }

  /** Rows come in region order. */
  lemma ReportAppend(a: seq<string>, b: seq<string>,
                     alarmListings: string -> Listing<Alarm>,
                     listings: (string, string) -> Listing<Subscription>,
                     lookup: map<string, PdService>)
    ensures Report(a + b, alarmListings, listings, lookup) ==
            Report(a, alarmListings, listings, lookup) + Report(b, alarmListings, listings, lookup)
  {
    FlatMapAppend(a, b, (region: string) => RegionRows(region, Gathered(alarmListings(region)), listings, lookup));
  }

  /** A region whose alarm listing failed before its first page yields no rows. */
  lemma FailedRegionIsEmpty(region: string,
                            alarmListings: string -> Listing<Alarm>,
                            listings: (string, string) -> Listing<Subscription>,
                            lookup: map<string, PdService>)
    requires alarmListings(region) == Listing([], true)
    ensures Report([region], alarmListings, listings, lookup) == []
  {
    FlatMapSingle(region, (r: string) => RegionRows(r, Gathered(alarmListings(r)), listings, lookup));
    assert Gathered(alarmListings(region)) == [];
  }

  /** A single alarm's region rows are exactly its alarm rows. */
  lemma RegionRowsSingle(region: string, alarm: Alarm,
                         listings: (string, string) -> Listing<Subscription>,
                         lookup: map<string, PdService>)
    ensures RegionRows(region, [alarm], listings, lookup) == AlarmRows(region, alarm, listings, lookup)
  {
    FlatMapSingle(alarm, (a: Alarm) => AlarmRows(region, a, listings, lookup));
  }

  /** ... and the other regions' rows are unaffected by it. */
  lemma FailedRegionContributesNothing(a: seq<string>, region: string, b: seq<string>,
                                       alarmListings: string -> Listing<Alarm>,
                                       listings: (string, string) -> Listing<Subscription>,
                                       lookup: map<string, PdService>)
    requires alarmListings(region) == Listing([], true)
    ensures Report(a + [region] + b, alarmListings, listings, lookup) ==
            Report(a, alarmListings, listings, lookup) + Report(b, alarmListings, listings, lookup)
  {
    ReportAppend(a + [region], b, alarmListings, listings, lookup);
    ReportAppend(a, [region], alarmListings, listings, lookup);
    FailedRegionIsEmpty(region, alarmListings, listings, lookup);
    var ra := Report(a, alarmListings, listings, lookup);
    assert ra + [] == ra;
  }
}

=== FILE: wrappers.dfy ===
/** Option, the stand-in for Python's `None`-or-value results. */
module Wrappers {

  datatype Option<+T> = None | Some(value: T) {

    /** The value if present, else `default` (like Python's `dict.get(k, default)`). */
    function GetOr(default: T): T {
      match this
      case Some(v) => v
      case None => default
    }
  }
}
